=== FILE: README.md ===
# Architecture learning app — a Dafny model of its logic

The app teaches architecture in two ways. A **quiz** walks a shuffled
building catalog. For each building it asks a style question and then an
engineering question, and it keeps a score. An **upload-and-chat** view sends
a photo to an `/api/analyze` endpoint, which forwards it to a hosted
language model. The view shows the returned analysis and then relays
follow-up questions. A Python script **generates catalog entries** by asking
the model for JSON and appending the entries that parse.

This project models that logic as pure Dafny functions over immutable
state and proves what each part promises.

| file | module | models |
|---|---|---|
| `base.dfy` | `Base` | `Option` (absent values) and `Result` (thrown errors) |
| `text.dfy` | `Text` | JavaScript `trim` and Python `strip` (different whitespace sets), prefix and substring search, `join`, decimal rendering |
| `jsvalue.dfy` | `Js` | the JSON values the endpoint receives: truthiness, property reads (which throw on `null`/`undefined`), template-literal string conversion |
| `shuffle.dfy` | `Shuffle` | `array.sort(() => Math.random() - 0.5)` as a sequence of swaps chosen by the random draws |
| `quiz.dfy` | `Quiz` | the five-stage quiz machine, option lists, score, percentage, style hints |
| `analyze.dfy` | `Analyze` | the `POST` handler: data-URI match, the 400 paths, prompt and token-budget choice, transcript, reply extraction, the 500 mapping |
| `conversation.dfy` | `Conversation` | the upload-and-chat view's state transitions, and the request body it sends to the endpoint |
| `generate.dfy` | `Generate` | code-fence stripping of model replies, generated/failed accounting, the append-only merge |

Nondeterminism and foreign calls become inputs:
- **Shuffles** become `Draw` values, i.e. swap sequences. Every permutation is reachable (`Shuffle.Reachable`).
- **The hosted model's reply** becomes `Analyze.Upstream` and `Generate.Completion`.
- **The browser's `fetch` result** becomes `Conversation.Reply`.
- **`FileReader`** becomes `Conversation.FileRead`.
- **`json.loads`** becomes a `parse` function parameter.

Each asynchronous view handler is split at its `await`. `Begin...` runs up to the request and records what the continuation captured in `inFlight`. `Resolve...` runs the rest when the reply arrives.

## Model

| member | source | states |
|---|---|---|
| `Shuffle.Shuffle` | components/Quiz.tsx:104-106 | the session's building order has the same length and holds the same buildings with the same multiplicities as the catalog |
| `Shuffle.Reachable` | components/Quiz.tsx:104-106 | every reordering of the catalog is some draw's result, so the model excludes no order the comparator sort can produce |
| `Quiz.Options` | components/Quiz.tsx:120-128 | an option list is a permutation of the distractors plus the answer: one longer than the distractors, containing the answer and every distractor |
| `Quiz.AnswerOfferedOnce` | components/Quiz.tsx:121-122 | when the distractors do not repeat the answer, the answer appears exactly once among the options |
| `Quiz.ShowOptions` | components/Quiz.tsx:118-130 | the effect replaces both option lists with permutations built from the current building, and changes nothing else |
| `Quiz.Start` | components/Quiz.tsx:104-130 | a non-empty catalog starts a valid session at the first building's style question with score 0/0, over a permutation of the catalog; an empty catalog gives no session |
| `Quiz.Tally` | components/Quiz.tsx:135-139 | an answer adds one to `total`, and adds one to `correct` exactly when it is right |
| `Quiz.HandleStyleAnswer` | components/Quiz.tsx:132-140 | moves to style-answer and records the choice; `total` grows by one and `correct` grows by one iff the choice equals the building's style; nothing else changes |
| `Quiz.HandleContinueToEngineering` | components/Quiz.tsx:164-166 | only the stage changes, to engineering-question |
| `Quiz.HandleEngineeringAnswer` | components/Quiz.tsx:142-150 | moves to engineering-answer and records the choice; `total` grows by one and `correct` grows by one iff the choice equals the engineering answer |
| `Quiz.HandleNext` | components/Quiz.tsx:152-162 | before the last building: next index, style question, both selections cleared, name hidden, score kept, new options for the new building; at the last building: only the stage changes, to complete |
| `Quiz.HandleRestart` | components/Quiz.tsx:168-175 | back to index 0 and the style question with score 0/0, selections cleared and name hidden, the building order kept; options are redrawn only when the index changes |
| `Quiz.HandleToggleName` | components/Quiz.tsx:243-248 | flips whether the building name shows, and nothing else |
| `Quiz.Step` | components/Quiz.tsx:132-175 | every click keeps the session valid (`correct <= total`, `total` equals the answers given, index in range, selections match the stage); stages never skip; the index never decreases except on restart; a click on a button not on screen changes nothing |
| `Quiz.StepTotal` | components/Quiz.tsx:132-175 | one click changes `total` exactly as a hand count of answers would |
| `Quiz.RunValid` | components/Quiz.tsx:107-175 | any sequence of clicks keeps the session valid and the building order fixed |
| `Quiz.TotalCountsAnswers` | components/Quiz.tsx:113-175 | after any accepted clicks, `total` is the number of answers given since the start or the last restart |
| `Quiz.Percentage` | components/Quiz.tsx:178 | the percentage is `100 * correct / total` rounded half up, and at most 100 when `correct <= total` |
| `Quiz.FinalPercentage` | components/Quiz.tsx:177-186 | on the final screen of a valid session, `total` is twice the number of buildings and the percentage shown is `correct / total * 100` rounded half up, at most 100 |
| `Quiz.SevenOfTen` | components/Quiz.tsx:178 | 7 correct out of 10 shows 70 |
| `Quiz.StyleHint` | components/Quiz.tsx:29-101 | the hint is never empty: the table's entry when present and non-empty, the default text when the style is missing or its entry is empty |
| `Text.Trim` | components/UploadAnalyze.tsx:62-64 | trimming leaves no whitespace at either end, never lengthens, and gives the empty string exactly for all-whitespace input |
| `Text.TrimPadded` | generate_buildings.py:58 | trimming text padded with whitespace on both sides gives the text back |
| `Js.ToText` | app/api/analyze/route.ts:50-61 | a template literal converts a string to itself, `null` and `undefined` to their names, booleans and integers to their literals, plain objects to `[object Object]` and arrays to their elements' texts joined by `,` with `null` and `undefined` elements as nothing; it throws exactly for an object with its own `toString` key or an array holding such a value |
| `Js.ArrayTextSnoc` | app/api/analyze/route.ts:50-51 | an empty array reads as the empty text, and appending an element appends a comma (when the array was not empty) and that element's text |
| `Analyze.ParseDataUri` | app/api/analyze/route.ts:20-29 | the match fails exactly when no split fits the pattern; on success the URI is `data:` + media type + `;base64,` + payload, both non-empty and on one line, and the media type is the longest that fits (greedy) |
| `Analyze.ParseDataUriRoundTrip` | app/api/analyze/route.ts:20-29 | a URI built from a one-line media type and a payload without `;base64,` parses back to exactly those two |
| `Analyze.GreedyMediaType` | app/api/analyze/route.ts:20 | example: `data:a;base64,b;base64,c` parses to media type `a;base64,b` and payload `c`, because the first group is greedy |
| `Analyze.PromptText` | app/api/analyze/route.ts:33-61 | the initial prompt is the fixed text; the follow-up text is the fixed header, the earlier analysis verbatim, a blank line, the transcript verbatim, and the fixed footer, each recoverable at its position |
| `Analyze.RenderMessage` | app/api/analyze/route.ts:50-51 | a user message becomes a `Student: ` line and any other role a `You: ` line, followed by the content as text; it throws exactly when the message is null or undefined or its content has no string form |
| `Analyze.RenderMessages` | app/api/analyze/route.ts:50-51 | one line per message in order; otherwise the error of the first message that cannot be read, every earlier message being readable |
| `Analyze.Transcript` | app/api/analyze/route.ts:50-52 | a non-array `messages` throws; otherwise the lines are joined by a blank line |
| `Analyze.TranscriptAppend` | app/api/analyze/route.ts:50-52 | one more message keeps the earlier transcript as a prefix and adds a blank line and its line |
| `Analyze.FollowUpPrompt` | app/api/analyze/route.ts:50-61 | the follow-up prompt carries the earlier analysis as template text and the transcript of the messages; it throws the transcript's error first, and otherwise throws exactly when the analysis has no string form |
| `Analyze.Fail` | app/api/analyze/route.ts:91-96 | any thrown value gives 500 with error `Analysis failed`; details are the `Error`'s message, or `Unknown error` for other values |
| `Analyze.Prepare` | app/api/analyze/route.ts:10-62 | a handler that answers before the model call never answers 200; an unreadable body answers with its own error; a `null` or missing body, or a truthy image that is not a string, throws and answers 500 with `Analysis failed` |
| `Analyze.Reply` | app/api/analyze/route.ts:88-90 | 200 exactly when the model returned at least one block; the first block's text when it is a text block, otherwise `Unable to analyze image`; a thrown call maps to the 500 response; an empty reply throws on `content[0]` and answers 500 with `Analysis failed` |
| `Analyze.Handle` | app/api/analyze/route.ts:8-98 | the status is 200, 400 or 500; a 400 never calls the model; every 500 carries `Analysis failed`; a 200 means the model was called and answered; once the model is called, the response is exactly the reply derived from its answer, and otherwise it is the answer given before the call |
| `Analyze.NoImageRefused` | app/api/analyze/route.ts:12-17 | a falsy image gives 400 `No image provided` and no model call |
| `Analyze.InvalidImageRefused` | app/api/analyze/route.ts:20-26 | an image string the pattern rejects gives 400 `Invalid image format` and no model call |
| `Analyze.InitialIgnoresHistory` | app/api/analyze/route.ts:33-66 | for any image the pattern parses, a truthy `isInitial` sends the fixed initial prompt with 1500 tokens and that image's media type and data, and the messages and earlier analysis do not affect the request |
| `Analyze.FollowUpRequest` | app/api/analyze/route.ts:48-66 | a falsy `isInitial` sends the follow-up prompt with 500 tokens when it can be built; when building it throws (for one, a non-array `messages`) the answer is 500 without a model call |
| `Analyze.ContentWithoutTextFails` | app/api/analyze/route.ts:50-52 | a message whose content is an object with its own `toString` key makes the handler answer 500 without a model call |
| `Analyze.QuestionInPrompt` | app/api/analyze/route.ts:50-61 | for any question and analysis, a one-message conversation's follow-up prompt has the analysis as given and the question verbatim as its only `Student:` line |
| `Analyze.UserLine` | app/api/analyze/route.ts:50-51 | any user message with text content renders as `Student: ` followed by that text |
| `Conversation.SelectImage` | components/UploadAnalyze.tsx:22-33 | a chosen file replaces the image (null when reading failed) and clears the analysis and messages; no file changes nothing |
| `Conversation.BeginInitialAnalysis` | components/UploadAnalyze.tsx:35-49 | nothing happens without an image or while loading; otherwise loading starts and the request carries the selected image |
| `Conversation.AnalysisOf` | components/UploadAnalyze.tsx:51-55 | a thrown request yields `Sorry, analysis failed. Please try again.`; a reply yields its `analysis` field |
| `Conversation.ResolveInitialAnalysisAsWritten` | components/UploadAnalyze.tsx:51-58 | the reply's analysis is stored and loading ends, whatever image is now selected |
| `Conversation.ResolveInitialAnalysis` | components/UploadAnalyze.tsx:51-58 | loading ends; the analysis changes only when the requested image is still selected, and then becomes the reply's |
| `Conversation.EditInput` | components/UploadAnalyze.tsx:223 | typing changes only the input text |
| `Conversation.BeginSend` | components/UploadAnalyze.tsx:61-82 | nothing happens for a blank question, without an image, or while loading; otherwise exactly one user message with the trimmed question is appended, the input is cleared, and the extended list is sent |
| `Conversation.AnswerOf` | components/UploadAnalyze.tsx:84-91 | the answer is an assistant message: the reply's `analysis`, or `Sorry, I had trouble responding. Could you try again?` when the request threw |
| `Conversation.ResolveSendAsWritten` | components/UploadAnalyze.tsx:84-94 | the list captured at sending plus the answer replaces the messages, whatever happened meanwhile; loading ends |
| `Conversation.ResolveSend` | components/UploadAnalyze.tsx:84-94 | loading ends; the answer is appended only while the messages are still those sent, otherwise they are left alone |
| `Conversation.UploadDifferentImage` | components/UploadAnalyze.tsx:173-178 | clears the image only |
| `Conversation.AnalyzeDifferentBuilding` | components/UploadAnalyze.tsx:239-248 | clears image, analysis and messages, and nothing else |
| `Conversation.SendThenReply` | components/UploadAnalyze.tsx:61-95 | a send and its reply, as written, add exactly the trimmed question and one answer after the unchanged earlier messages, and loading ends; with nothing in between the guarded resolution gives the same state |
| `Conversation.FailedSendKeepsHistory` | components/UploadAnalyze.tsx:86-91 | a failed send, as written, keeps the history and the question and then appends the fixed apology |
| `Conversation.ResetButtonsDiffer` | components/UploadAnalyze.tsx:174-244 | both reset buttons clear the image; only "Analyze Different Building" also clears the analysis and the messages |
| `Conversation.Step` | components/UploadAnalyze.tsx:35-95 | with the as-written resolutions and with the guarded ones, `isLoading` is set exactly while a request is awaited; it is off after every reply, successful or not, and no other event turns it off; a disabled event changes nothing |
| `Conversation.StepKeepsHistory` | components/UploadAnalyze.tsx:22-95 | with either resolution, a step keeps the messages, extends them, or clears them together with the image or the analysis |
| `Conversation.Run` | components/UploadAnalyze.tsx:22-95 | any sequence of events from a consistent state, with either resolution, keeps `isLoading` exactly while a request is awaited |
| `Conversation.StaleAnalysisLandsAsWritten` | components/UploadAnalyze.tsx:164-178 | as written, photo A's analysis is stored for photo B when B was picked while A's request was pending |
| `Conversation.StaleAnalysisDropped` | components/UploadAnalyze.tsx:51-52 | with the stale-reply guard, photo B is left without an analysis in the same sequence |
| `Conversation.StaleAnswerLandsAsWritten` | components/UploadAnalyze.tsx:239-248 | as written, an answer pending when the user switched to photo B makes the old exchange B's conversation |
| `Conversation.StaleAnswerDropped` | components/UploadAnalyze.tsx:84-85 | with the stale-reply guard, photo B's conversation stays empty in the same sequence |
| `Conversation.RenderMessageValue` | components/UploadAnalyze.tsx:77-81 | a message as the view sends it becomes the line `Student: question` or `You: answer` at the endpoint (`undefined` for a missing answer) |
| `Conversation.RequestBody` | components/UploadAnalyze.tsx:45-81 | the initial request carries the selected image and a true `isInitial`; a follow-up carries the image, every sent message in order and the analysis, with a falsy `isInitial` |
| `Conversation.TranscriptOfSent` | components/UploadAnalyze.tsx:77-81 | the endpoint's transcript of the sent list has one line per message, in order |
| `Conversation.LastLineIsQuestion` | components/UploadAnalyze.tsx:64-68 | the transcript of the extended list ends with the new question's `Student:` line |
| `Conversation.FollowUpBodyPrepared` | components/UploadAnalyze.tsx:77-81 | a follow-up from the view reaches the model with the image's media type and data, 500 tokens, and a prompt over the analysis (`null` when absent) and the lines of the sent messages |
| `Conversation.SentQuestionEndsPrompt` | components/UploadAnalyze.tsx:61-82 | a question sent from the view reaches the model with 500 tokens and the image's media type and data, in a follow-up prompt whose transcript ends with the question's `Student:` line |
| `Conversation.InitialRequestPrompt` | components/UploadAnalyze.tsx:45-48 | the view's initial request reaches the model with the fixed initial prompt and 1500 tokens |
| `Generate.FencedPart` | generate_buildings.py:62 | the part after the opening fence runs up to the next fence or the end; it contains no fence, and no fence of the text starts inside it |
| `Generate.Untag` | generate_buildings.py:63-64 | a part starting with `json` loses exactly those four characters; any other part is unchanged |
| `Generate.StripFences` | generate_buildings.py:58-65 | the result has no surrounding whitespace and is never longer than the reply; a reply that does not start with a fence is only trimmed; one that does becomes its fenced part, untagged and trimmed |
| `Generate.TagDropped` | generate_buildings.py:63-64 | the `json` tag or its absence before a line-broken JSON body leaves the line-broken body |
| `Generate.StripFencedBlock` | generate_buildings.py:61-65 | a reply that trims to a fenced block whose body does not end in a backtick yields the body, untagged and trimmed; one-line blocks included |
| `Generate.FenceRoundTrip` | generate_buildings.py:58-65 | JSON in a fence, tagged `json` or not and padded with any whitespace, comes out exactly |
| `Generate.OneLineBlock` | generate_buildings.py:58-65 | untagged JSON fenced on one line comes out exactly |
| `Generate.UnfencedUntouched` | generate_buildings.py:58-61 | an unfenced reply reaches the parser trimmed and otherwise unchanged |
| `Generate.Entry` | generate_buildings.py:58-67 | a failed call, an empty reply or a first block without text yields no entry; otherwise the entry is the parse of the stripped text |
| `Generate.EveryRequestAccounted` | generate_buildings.py:164-176 | the generated entries and the failed requests together number the requests |
| `Generate.GenerateAll` | generate_buildings.py:161-181 | the loop yields the successful entries and the failed requests, each in request order, and pauses between consecutive requests only |
| `Generate.Merge` | generate_buildings.py:183-189 | nothing is written exactly when no entry was generated; otherwise the catalog keeps the existing entries as an unchanged prefix followed by the new ones |
| `Generate.RunKeepsCatalog` | generate_buildings.py:161-189 | after a run the catalog starts with its earlier entries and grew by one entry per request that did not fail |

## Left out

- Rendering: JSX, styles, images, the home page's mode switch, the footer and the Tailwind configuration are presentation only.
- Shuffle distribution: the random comparator sort is modelled as "some sequence of swaps". It is not uniform, and no property about the distribution is claimed.
- `Quiz.Percentage`: requires `total > 0`. The source divides unguarded, and `0/0` would show `NaN`. `Quiz.FinalPercentage` shows that every reachable final screen has a positive total.
- `Quiz.Percentage`: uses exact integer rounding in place of floating-point `Math.round`.
- `Quiz.StyleHint`: the contents of the hint table are a parameter.
- `Quiz.StyleHint`: a style named like a built-in object property (e.g. `constructor`) is treated as absent, not as the inherited value.
- `Js.ToText`: numbers are integers only. Fractions, exponents and `NaN` are not modelled.
- `Js.ToText`: a parsed JSON value holds no functions, so an own `toString` key is the only way its conversion throws; `Symbol.toPrimitive` cannot occur.
- `Analyze.RenderMessage`: the wording of engine-raised `TypeError` messages is not modelled. The 500 response carries a stand-in naming the failing operation.
- The model call, `fetch`, `FileReader`, `response.json()` and `json.loads` are inputs, not code.
- `JSON.stringify` on the view's request is modelled as producing the value the endpoint parses. `Conversation.RequestBody` shows that value.
- The model identifier, the API key and environment-variable checks, console output, the `time.sleep` durations and file reading and writing are not modelled. `Generate.GenerateAll` counts the pauses only.
- `Conversation.SelectImage`: `null` and `undefined` state values are both written as absent (`None`). For a message, `None` content is sent without the field, so the endpoint renders it as `undefined`.
- The initial analysis sent from the chat view is `null` only before an analysis exists. At that point the chat controls are not on screen.
- The endpoint's response status is not examined by the view. An error body has no `analysis` field, and the view stores the missing field as an absent analysis or an absent answer, as the source does.
- `download_images.py` is not part of this model. It is network search and file download around a success/failure tally.
- React effect timing and batching: each handler's state updates are applied together. The options effect is folded into the transition that changes the index.

## Findings

| source | as written | input that shows it | evidently intended | confidence | as-written member | corrected member |
|---|---|---|---|---|---|---|
| components/UploadAnalyze.tsx:51-52 | the initial analysis reply is stored whatever photo is selected when it arrives, and "Upload Different Image" stays clickable while it is pending | pick photo A, click "Analyze Building", click "Upload Different Image", pick photo B, then A's reply arrives: B is shown with A's analysis | a reply for a photo that is no longer selected is dropped | medium, not executed | `Conversation.StaleAnalysisLandsAsWritten` | `Conversation.ResolveInitialAnalysis` |
| components/UploadAnalyze.tsx:84-85 | the follow-up reply replaces the messages with the list captured at sending, even after "Analyze Different Building" and a new photo | ask "Why?" about photo A, click "Analyze Different Building", pick photo B, then the answer arrives: B's conversation holds A's question and answer | a reply for a conversation that was cleared is dropped | medium, not executed | `Conversation.StaleAnswerLandsAsWritten` | `Conversation.ResolveSend` |

`Conversation.Step`, the view's state machine, takes a flag that picks the as-written or the guarded resolutions, and its properties are proved for both.

=== FILE: analyze.dfy ===
/** The `POST /api/analyze` handler (app/api/analyze/route.ts): it validates
    the uploaded image, picks one of two prompts, asks the hosted model and
    relays the first text block of the reply.

    The model call is an input (`Upstream`): the content blocks it returned or
    the error it threw. `Handle` returns the response together with the
    request it sent to the model, if it got that far. */
module Analyze {
  import opened Base
  import opened Text
  import opened Js

  // ---------------------------------------------------------------------------
  // The data URI pattern ^data:(.+);base64,(.+)$

  const DataPrefix: string := "data:"
  const Base64Marker: string := ";base64,"

  /** The characters a regular-expression `.` does not match. */
  predicate IsLineTerminator(c: char) {
    c == '\n' || c == '\r' || c == '\U{2028}' || c == '\U{2029}'
  }

  predicate OneLine(s: string) {
    forall i :: 0 <= i < |s| ==> !IsLineTerminator(s[i])
  }

  /** The pattern matches `s` with a first group of length `k`: `s` is one line,
      starts with `data:`, and `;base64,` follows the first `k` characters
      after it, with at least one character left for the second group. */
  predicate SplitAt(s: string, k: nat) {
    && StartsWith(s, DataPrefix)
    && OneLine(s)
    && 1 <= k
    && |DataPrefix| + k + |Base64Marker| < |s|
    && OccursAt(s, Base64Marker, |DataPrefix| + k)
  }

  datatype DataUri = DataUri(mediaType: string, data: string)

  /** The largest first-group length in `1..k` at which the pattern matches. */
  function LastSplit(s: string, k: nat): (r: Option<nat>)
    ensures r.Some? ==> 1 <= r.value <= k && SplitAt(s, r.value)
    ensures r.Some? ==> forall j :: r.value < j <= k ==> !SplitAt(s, j)
    ensures r.None? ==> forall j :: 1 <= j <= k ==> !SplitAt(s, j)
    decreases k
  {
    if k == 0 then None
    else if SplitAt(s, k) then Some(k)
    else LastSplit(s, k - 1)
  }

  /** `image.match(/^data:(.+);base64,(.+)$/)` and its two groups. The first
      group is greedy: of all ways to split, the longest media type wins. */
  function ParseDataUri(s: string): (r: Option<DataUri>)
    ensures r.None? <==> forall k: nat :: !SplitAt(s, k)
    ensures r.Some? ==> s == DataPrefix + r.value.mediaType + Base64Marker + r.value.data
    ensures r.Some? ==> r.value.mediaType != "" && r.value.data != ""
    ensures r.Some? ==> OneLine(r.value.mediaType) && OneLine(r.value.data)
    ensures r.Some? ==> SplitAt(s, |r.value.mediaType|)
    ensures r.Some? ==> forall k: nat :: SplitAt(s, k) ==> k <= |r.value.mediaType|
  {
    match LastSplit(s, |s|)
    case None => None
    case Some(k) =>
      var start := |DataPrefix| + k + |Base64Marker|;
      var m := s[|DataPrefix|..|DataPrefix| + k];
      var p := s[start..];
      assert s == s[..|DataPrefix|] + m + s[|DataPrefix| + k..start] + p;
      assert forall i :: 0 <= i < |m| ==> m[i] == s[|DataPrefix| + i];
      assert forall i :: 0 <= i < |p| ==> p[i] == s[start + i];
      Some(DataUri(m, p))
  }

  /** Writing a media type and payload as a data URI and matching it gives
      them back, provided the payload does not itself contain `;base64,`
      (otherwise the greedy first group would swallow part of it). */
  lemma ParseDataUriRoundTrip(m: string, p: string)
    requires m != "" && p != "" && OneLine(m) && OneLine(p)
    requires forall j :: !OccursAt(p, Base64Marker, j)
    ensures ParseDataUri(DataPrefix + m + Base64Marker + p) == Some(DataUri(m, p))
  {
    var s := DataPrefix + m + Base64Marker + p;
    var at := |DataPrefix| + |m|;
    assert s[..|DataPrefix|] == DataPrefix;
    assert s[at..at + |Base64Marker|] == Base64Marker;
    assert OneLine(s) by {
      forall i | 0 <= i < |s| ensures !IsLineTerminator(s[i]) {
        if i < |DataPrefix| {
        } else if i < at {
          assert s[i] == m[i - |DataPrefix|];
        } else if i < at + |Base64Marker| {
          assert s[i] == Base64Marker[i - at];
        } else {
          assert s[i] == p[i - at - |Base64Marker|];
        }
      }
    }
    assert SplitAt(s, |m|);
    NoLaterSplit(m, p);
    var r := ParseDataUri(s);
    assert r.Some?;
    var mt := r.value.mediaType;
    assert |mt| <= |m|;
    assert |mt| >= |m|;
    assert forall i :: 0 <= i < |m| ==> s[|DataPrefix| + i] == m[i];
    assert |s[|DataPrefix|..at]| == |m|;
    assert s[|DataPrefix|..at] == m;
    assert s == DataPrefix + mt + Base64Marker + r.value.data;
    assert s[|DataPrefix|..|DataPrefix| + |mt|] == mt;
    assert forall i :: 0 <= i < |p| ==> s[at + |Base64Marker| + i] == p[i];
    assert |s[at + |Base64Marker|..]| == |p|;
    assert s[at + |Base64Marker|..] == p;
    assert s[|DataPrefix| + |mt| + |Base64Marker|..] == r.value.data;
  }

  /** No split of `data:` + m + `;base64,` + p lies past the end of `m`. */
  lemma NoLaterSplit(m: string, p: string)
    requires forall j :: !OccursAt(p, Base64Marker, j)
    ensures forall k: nat :: |m| < k ==> !SplitAt(DataPrefix + m + Base64Marker + p, k)
  {
    var s := DataPrefix + m + Base64Marker + p;
    var at := |DataPrefix| + |m|;
    forall k: nat | |m| < k ensures !SplitAt(s, k) {
      var pos := |DataPrefix| + k;
      if pos + |Base64Marker| <= |s| {
        if pos < at + |Base64Marker| {
          assert s[pos] == Base64Marker[pos - at];
          assert forall i :: 1 <= i < |Base64Marker| ==> Base64Marker[i] != ';';
          assert s[pos] != ';';
          assert s[pos..pos + |Base64Marker|][0] == s[pos];
          assert Base64Marker[0] == ';';
          assert s[pos..pos + |Base64Marker|] != Base64Marker;
        } else {
          var j := pos - at - |Base64Marker|;
          assert |s| == at + |Base64Marker| + |p|;
          assert j + |Base64Marker| <= |p|;
          assert forall i :: pos <= i < pos + |Base64Marker| ==> s[i] == p[i - pos + j];
          SameWindow(s, pos, p, j, |Base64Marker|);
          assert !OccursAt(p, Base64Marker, j);
        }
      }
    }
  }

  /** The first group is greedy: with two markers the media type takes the
      first one and everything up to the second. */
  lemma GreedyMediaType()
    ensures ParseDataUri("data:a;base64,b;base64,c") == Some(DataUri("a;base64,b", "c"))
  {
    assert DataPrefix + "a;base64,b" + Base64Marker + "c" == "data:a;base64,b;base64,c";
    ParseDataUriRoundTrip("a;base64,b", "c");
  }

  // ---------------------------------------------------------------------------
  // Prompts

  const InitialPrompt: string :=
    "You are a friendly university architecture professor with deep expertise but a gift for making complex concepts accessible. Analyze this building image as if explaining it to a curious student over coffee.\n\n"
    + "Keep your response concise but informative - aim for 3-4 short paragraphs covering:\n\n"
    + "1. **Style & Era**: What style is this and when was it likely built?\n\n"
    + "2. **Key Features**: What stands out architecturally?\n\n"
    + "3. **How It Works**: Brief explanation of the structural system and materials.\n\n"
    + "4. **One Cool Detail**: An interesting tidbit about construction or design.\n\n"
    + "Write in a warm, conversational tone. Be specific but don't overwhelm with jargon."

  const FollowUpHeader: string :=
    "You are a friendly university architecture professor. Here's the conversation so far:\n\nInitial Analysis:\n"

  const FollowUpFooter: string :=
    "\n\nAnswer the latest question in 2-3 sentences. Stay conversational and use analogies when helpful. Reference the image when relevant."

  const LineSeparator: string := "\n\n"

  const InitialMaxTokens: nat := 1500
  const FollowUpMaxTokens: nat := 500

  /** A thrown JavaScript value; `isError` when it is an `Error` instance. */
  datatype Thrown = Thrown(isError: bool, message: string)

  /** An error the JavaScript engine raises itself. Its message wording is the
      engine's; the text here only names the failing operation. */
  function TypeError(operation: string): Thrown {
    Thrown(true, operation)
  }

  /** The TypeError of a template literal whose value has no string form. */
  const NoPrimitive: Thrown := TypeError("converting an object to a primitive value")

  /** The transcript line of one message, or the error reading it throws:
      reading `role` of `null` or `undefined`, or converting a `content`
      that has no string form. */
  function RenderMessage(msg: Value): (r: Result<string, Thrown>)
    ensures r.Failure? <==> msg.Undefined? || msg.Null? || NoText(Get(msg, "content").value)
    ensures r.Success? && Get(msg, "role") == Some(Str("user")) ==>
              r.value == "Student: " + ToText(Get(msg, "content").value).value
    ensures r.Success? && Get(msg, "role") != Some(Str("user")) ==>
              r.value == "You: " + ToText(Get(msg, "content").value).value
  {
    if msg.Undefined? then Failure(TypeError("reading 'role' of undefined"))
    else if msg.Null? then Failure(TypeError("reading 'role' of null"))
    else
      var speaker := if Get(msg, "role") == Some(Str("user")) then "Student" else "You";
      match ToText(Get(msg, "content").value)
      case None => Failure(NoPrimitive)
      case Some(content) => Success(speaker + ": " + content)
  }

  /** `messages.map(render)`: the lines in message order, or the error of the
      first message that cannot be read. */
  function RenderMessages(msgs: seq<Value>): (r: Result<seq<string>, Thrown>)
    ensures r.Success? <==> forall i :: 0 <= i < |msgs| ==> RenderMessage(msgs[i]).Success?
    ensures r.Success? ==> |r.value| == |msgs|
    ensures r.Success? ==> forall i :: 0 <= i < |msgs| ==> r.value[i] == RenderMessage(msgs[i]).value
    ensures r.Failure? ==> exists i :: 0 <= i < |msgs| && RenderMessage(msgs[i]) == Failure(r.error)
                                    && forall j :: 0 <= j < i ==> RenderMessage(msgs[j]).Success?
    decreases |msgs|
  {
    if |msgs| == 0 then Success([])
    else match RenderMessage(msgs[0])
      case Failure(e) => Failure(e)
      case Success(line) =>
        match RenderMessages(msgs[1..])
        case Failure(e) => LaterMessageFails(msgs, e); Failure(e)
        case Success(rest) => EveryMessageRenders(msgs, line, rest); Success([line] + rest)
  }

  lemma LaterMessageFails(msgs: seq<Value>, e: Thrown)
    requires |msgs| > 0 && RenderMessage(msgs[0]).Success?
    requires exists i :: 0 <= i < |msgs[1..]| && RenderMessage(msgs[1..][i]) == Failure(e)
                         && forall j :: 0 <= j < i ==> RenderMessage(msgs[1..][j]).Success?
    ensures exists i :: 0 <= i < |msgs| && RenderMessage(msgs[i]) == Failure(e)
                        && forall j :: 0 <= j < i ==> RenderMessage(msgs[j]).Success?
    ensures !forall i :: 0 <= i < |msgs| ==> RenderMessage(msgs[i]).Success?
  {
    var rest := msgs[1..];
    var i :| 0 <= i < |rest| && RenderMessage(rest[i]) == Failure(e)
             && forall j :: 0 <= j < i ==> RenderMessage(rest[j]).Success?;
    assert msgs[i + 1] == rest[i];
    assert forall j :: 1 <= j < i + 1 ==> msgs[j] == rest[j - 1];
  }

  lemma EveryMessageRenders(msgs: seq<Value>, line: string, rest: seq<string>)
    requires |msgs| > 0 && RenderMessage(msgs[0]) == Success(line)
    requires forall i :: 0 <= i < |msgs[1..]| ==> RenderMessage(msgs[1..][i]).Success?
    requires |rest| == |msgs[1..]|
    requires forall i :: 0 <= i < |msgs[1..]| ==> rest[i] == RenderMessage(msgs[1..][i]).value
    ensures forall i :: 0 <= i < |msgs| ==> RenderMessage(msgs[i]).Success?
    ensures |[line] + rest| == |msgs|
    ensures forall i :: 0 <= i < |msgs| ==> ([line] + rest)[i] == RenderMessage(msgs[i]).value
  {
    assert forall i :: 1 <= i < |msgs| ==> msgs[i] == msgs[1..][i - 1];
  }

  /** The conversation history of a follow-up: the message lines joined by a
      blank line. */
  function Transcript(messages: Value): (r: Result<string, Thrown>)
    ensures !messages.Arr? ==> r.Failure?
    ensures messages.Arr? ==> (r.Success? <==> RenderMessages(messages.items).Success?)
    ensures messages.Arr? && r.Success? ==> r.value == Join(RenderMessages(messages.items).value, LineSeparator)
  {
    if !messages.Arr? then Failure(TypeError("messages.map is not a function"))
    else match RenderMessages(messages.items)
      case Failure(e) => Failure(e)
      case Success(lines) => Success(Join(lines, LineSeparator))
  }

  /** A further message only extends the transcript: the earlier lines stay in
      place and the new one follows a blank line. */
  lemma TranscriptAppend(msgs: seq<Value>, msg: Value)
    requires |msgs| > 0
    requires Transcript(Arr(msgs)).Success? && RenderMessage(msg).Success?
    ensures Transcript(Arr(msgs + [msg])) ==
            Success(Transcript(Arr(msgs)).value + LineSeparator + RenderMessage(msg).value)
  {
    var lines := RenderMessages(msgs).value;
    var all := msgs + [msg];
    assert forall i :: 0 <= i < |all| ==> RenderMessage(all[i]).Success? by {
      forall i | 0 <= i < |all| ensures RenderMessage(all[i]).Success? {
        if i < |msgs| { assert all[i] == msgs[i]; }
      }
    }
    assert RenderMessages(all).value == lines + [RenderMessage(msg).value];
    JoinSnoc(lines, RenderMessage(msg).value, LineSeparator);
  }

  /** The text prompt by kind: the fixed initial one, or a follow-up over the
      earlier analysis and the transcript. */
  datatype Prompt = Initial | FollowUp(analysis: string, history: string)

  /** Four pieces laid end to end around a header can be cut back out. */
  lemma Framed(header: string, a: string, h: string, footer: string)
    ensures var r := header + a + LineSeparator + h + footer;
            var at := |header|;
            && |r| == at + |a| + |LineSeparator| + |h| + |footer|
            && r[..at] == header
            && r[at..at + |a|] == a
            && r[at + |a|..at + |a| + |LineSeparator|] == LineSeparator
            && r[at + |a| + |LineSeparator|..at + |a| + |LineSeparator| + |h|] == h
            && r[at + |a| + |LineSeparator| + |h|..] == footer
  {
  }

  /** The exact text sent for a prompt: the fixed initial text, or the
      earlier analysis and then the transcript, verbatim, between the fixed
      follow-up header and footer and separated by a blank line. */
  function PromptText(p: Prompt): (r: string)
    ensures p.Initial? ==> r == InitialPrompt
    ensures p.FollowUp? ==>
              var at := |FollowUpHeader|;
              var a := p.analysis;
              var h := p.history;
              && |r| == at + |a| + |LineSeparator| + |h| + |FollowUpFooter|
              && r[..at] == FollowUpHeader
              && r[at..at + |a|] == a
              && r[at + |a|..at + |a| + |LineSeparator|] == LineSeparator
              && r[at + |a| + |LineSeparator|..at + |a| + |LineSeparator| + |h|] == h
              && r[at + |a| + |LineSeparator| + |h|..] == FollowUpFooter
  {
    match p
    case Initial => InitialPrompt
    case FollowUp(a, h) =>
      Framed(FollowUpHeader, a, h, FollowUpFooter);
      FollowUpHeader + a + LineSeparator + h + FollowUpFooter
  }

  /** The follow-up prompt: the earlier analysis as template text and the
      transcript, or the error thrown rendering the transcript (first) or
      converting the analysis. */
  function FollowUpPrompt(messages: Value, initialAnalysis: Value): (r: Result<Prompt, Thrown>)
    ensures r.Success? <==> Transcript(messages).Success? && !NoText(initialAnalysis)
    ensures r.Success? ==> r.value == FollowUp(ToText(initialAnalysis).value, Transcript(messages).value)
    ensures Transcript(messages).Failure? ==> r == Failure(Transcript(messages).error)
    ensures Transcript(messages).Success? && NoText(initialAnalysis) ==> r == Failure(NoPrimitive)
  {
    match Transcript(messages)
    case Failure(e) => Failure(e)
    case Success(history) =>
      match ToText(initialAnalysis)
      case None => Failure(NoPrimitive)
      case Some(analysis) => Success(FollowUp(analysis, history))
  }

  // ---------------------------------------------------------------------------
  // Request handling

  const NoImageError: string := "No image provided"
  const InvalidFormatError: string := "Invalid image format"
  const FailureError: string := "Analysis failed"
  const UnknownErrorDetails: string := "Unknown error"
  const FallbackAnalysis: string := "Unable to analyze image"

  /** The request body: the value `request.json()` produced, or what it threw. */
  datatype Body = Parsed(value: Value) | Unreadable(error: Thrown)

  /** What the handler sends to the model: the image and the text prompt. */
  datatype ModelRequest = ModelRequest(mediaType: string, data: string, prompt: Prompt, maxTokens: nat)

  datatype Block = TextBlock(text: string) | OtherBlock

  /** The model call's outcome: the reply's content blocks, or what it threw. */
  datatype Upstream = Content(blocks: seq<Block>) | Raised(error: Thrown)

  datatype Response =
    | Analysis(analysis: string)
    | ClientError(error: string)
    | ServerError(error: string, details: string)

  function Status(r: Response): nat {
    match r
    case Analysis(_) => 200
    case ClientError(_) => 400
    case ServerError(_, _) => 500
  }

  /** The catch block: any thrown value becomes a 500 with a fixed error and
      the message of an `Error`, or a fixed text for anything else. */
  function Fail(e: Thrown): (r: Response)
    ensures Status(r) == 500 && r.error == FailureError
    ensures r.details == (if e.isError then e.message else UnknownErrorDetails)
  {
    ServerError(FailureError, if e.isError then e.message else UnknownErrorDetails)
  }

  /** Where the handler stands before the model call: it either answered
      already or has a request for the model. */
  datatype Stage = Answered(response: Response) | Call(request: ModelRequest)

  function Field(body: Value, key: string): Value
    requires !body.Undefined? && !body.Null?
  {
    Get(body, key).value
  }

  /** Everything before the model call: reading the body, the two 400 checks,
      and building the prompt. */
  function Prepare(body: Body): (r: Stage)
    ensures r.Answered? ==> Status(r.response) != 200
    ensures body.Unreadable? ==> r == Answered(Fail(body.error))
    ensures body.Parsed? && (body.value.Undefined? || body.value.Null?) ==>
              r.Answered? && Status(r.response) == 500 && r.response.error == FailureError
    ensures body.Parsed? && !body.value.Undefined? && !body.value.Null? &&
            Truthy(Field(body.value, "image")) && !Field(body.value, "image").Str? ==>
              r.Answered? && Status(r.response) == 500 && r.response.error == FailureError
  {
    match body
    case Unreadable(e) => Answered(Fail(e))
    case Parsed(v) =>
      if v.Undefined? || v.Null? then Answered(Fail(TypeError("destructuring the request body")))
      else
        var image := Field(v, "image");
        if !Truthy(image) then Answered(ClientError(NoImageError))
        else if !image.Str? then Answered(Fail(TypeError("image.match is not a function")))
        else match ParseDataUri(image.s)
          case None => Answered(ClientError(InvalidFormatError))
          case Some(uri) =>
            if Truthy(Field(v, "isInitial")) then
              Call(ModelRequest(uri.mediaType, uri.data, Initial, InitialMaxTokens))
            else match FollowUpPrompt(Field(v, "messages"), Field(v, "initialAnalysis"))
              case Failure(e) => Answered(Fail(e))
              case Success(prompt) => Call(ModelRequest(uri.mediaType, uri.data, prompt, FollowUpMaxTokens))
  }

  /** The reply: the first content block's text when it is a text block, a
      fixed fallback for any other block; an empty reply throws. */
  function Reply(upstream: Upstream): (r: Response)
    ensures Status(r) == 200 <==> upstream.Content? && |upstream.blocks| > 0
    ensures upstream.Content? && |upstream.blocks| > 0 && upstream.blocks[0].TextBlock? ==>
              r == Analysis(upstream.blocks[0].text)
    ensures upstream.Content? && |upstream.blocks| > 0 && upstream.blocks[0].OtherBlock? ==>
              r == Analysis(FallbackAnalysis)
    ensures upstream.Raised? ==> r == Fail(upstream.error)
    ensures upstream.Content? && |upstream.blocks| == 0 ==> Status(r) == 500 && r.error == FailureError
  {
    match upstream
    case Raised(e) => Fail(e)
    case Content(blocks) =>
      if |blocks| == 0 then Fail(TypeError("reading 'type' of content[0]"))
      else match blocks[0]
        case TextBlock(t) => Analysis(t)
        case OtherBlock => Analysis(FallbackAnalysis)
  }

  /** One request: the response, and the request sent to the model if any. */
  datatype Exchange = Exchange(response: Response, sent: Option<ModelRequest>)

  function Handle(body: Body, upstream: Upstream): (x: Exchange)
    ensures x.sent.Some? <==> Prepare(body).Call?
    ensures x.sent.Some? ==> x.sent.value == Prepare(body).request
    ensures Status(x.response) in {200, 400, 500}
    ensures Status(x.response) == 400 ==> x.sent.None?
    ensures Status(x.response) == 500 ==> x.response.error == FailureError
    ensures Status(x.response) == 200 ==> x.sent.Some? && upstream.Content?
    ensures x.sent.Some? ==> x.response == Reply(upstream)
    ensures x.sent.None? ==> x.response == Prepare(body).response
  {
    match Prepare(body)
    case Answered(r) => Exchange(r, None)
    case Call(req) => Exchange(Reply(upstream), Some(req))
  }

  // ---------------------------------------------------------------------------
  // Properties of the handler

  /** A missing or falsy image is refused with 400 before the model is asked. */
  lemma NoImageRefused(v: Value, upstream: Upstream)
    requires !v.Undefined? && !v.Null?
    requires !Truthy(Field(v, "image"))
    ensures Handle(Parsed(v), upstream) == Exchange(ClientError(NoImageError), None)
  {
  }

  /** An image string the pattern does not match is refused with 400 before
      the model is asked. */
  lemma InvalidImageRefused(v: Value, upstream: Upstream)
    requires !v.Undefined? && !v.Null?
    requires Field(v, "image").Str? && Field(v, "image").s != ""
    requires forall k: nat :: !SplitAt(Field(v, "image").s, k)
    ensures Handle(Parsed(v), upstream) == Exchange(ClientError(InvalidFormatError), None)
  {
  }

  /** A truthy `isInitial` sends the fixed initial prompt with the larger
      token budget, whatever the messages and earlier analysis are. */
  lemma InitialIgnoresHistory(fields: map<string, Value>, uri: DataUri, messages: Value, analysis: Value)
    requires "image" in fields && fields["image"].Str? && ParseDataUri(fields["image"].s) == Some(uri)
    requires "isInitial" in fields && Truthy(fields["isInitial"])
    ensures Prepare(Parsed(Obj(fields))) == Call(ModelRequest(uri.mediaType, uri.data, Initial, InitialMaxTokens))
    ensures Prepare(Parsed(Obj(fields["messages" := messages]["initialAnalysis" := analysis]))) ==
            Prepare(Parsed(Obj(fields)))
  {
  }

  /** A falsy `isInitial` sends the follow-up prompt with the smaller budget;
      a `messages` that is not an array throws, which the handler turns into a
      500 without asking the model. */
  lemma FollowUpRequest(v: Value, uri: DataUri, upstream: Upstream)
    requires !v.Undefined? && !v.Null?
    requires Field(v, "image").Str? && ParseDataUri(Field(v, "image").s) == Some(uri)
    requires !Truthy(Field(v, "isInitial"))
    ensures FollowUpPrompt(Field(v, "messages"), Field(v, "initialAnalysis")).Success? ==>
      Handle(Parsed(v), upstream).sent ==
        Some(ModelRequest(uri.mediaType, uri.data,
                          FollowUpPrompt(Field(v, "messages"), Field(v, "initialAnalysis")).value,
                          FollowUpMaxTokens))
    ensures FollowUpPrompt(Field(v, "messages"), Field(v, "initialAnalysis")).Failure? ==>
      Handle(Parsed(v), upstream).sent.None? && Status(Handle(Parsed(v), upstream).response) == 500
    ensures !Field(v, "messages").Arr? ==>
      Handle(Parsed(v), upstream).sent.None? && Status(Handle(Parsed(v), upstream).response) == 500
  {
    assert ParseDataUri(Field(v, "image").s).Some?;
  }

  /** A message whose content is an object with its own `toString` key
      throws while the transcript is built, so the model is not asked. */
  lemma ContentWithoutTextFails(image: string, uri: DataUri, upstream: Upstream)
    requires ParseDataUri(image) == Some(uri)
    ensures var msg := Obj(map["role" := Str("user"), "content" := Obj(map["toString" := Num(1)])]);
            var body := Obj(map["image" := Str(image), "messages" := Arr([msg])]);
            Handle(Parsed(body), upstream) == Exchange(Fail(NoPrimitive), None)
  {
    var msg := Obj(map["role" := Str("user"), "content" := Obj(map["toString" := Num(1)])]);
    assert Get(msg, "content") == Some(Obj(map["toString" := Num(1)]));
    assert RenderMessage(msg) == Failure(NoPrimitive);
    assert [msg][0] == msg;
  }

  /** A user message with text content renders as that text after `Student: `. */
  lemma UserLine(content: string)
    ensures RenderMessage(Obj(map["role" := Str("user"), "content" := Str(content)])) ==
            Success("Student: " + content)
  {
    var msg := Obj(map["role" := Str("user"), "content" := Str(content)]);
    assert Get(msg, "role") == Some(Str("user"));
    assert Get(msg, "content") == Some(Str(content));
  }

  /** A single readable message renders to its one line. */
  lemma RenderSingle(msg: Value)
    requires RenderMessage(msg).Success?
    ensures RenderMessages([msg]) == Success([RenderMessage(msg).value])
  {
    var lines := RenderMessages([msg]);
    assert [msg][0] == msg;
    assert lines.value == [lines.value[0]];
  }

  /** A conversation of one readable message is that message's line. */
  lemma SingleMessagePrompt(msg: Value, analysis: string)
    requires RenderMessage(msg).Success?
    ensures FollowUpPrompt(Arr([msg]), Str(analysis)) == Success(FollowUp(analysis, RenderMessage(msg).value))
  {
    RenderSingle(msg);
  }

  /** A student's question becomes the `Student:` line of the follow-up, and
      the earlier analysis is taken as given. */
  lemma QuestionInPrompt(question: string, analysis: string)
    ensures var q := Obj(map["role" := Str("user"), "content" := Str(question)]);
            FollowUpPrompt(Arr([q]), Str(analysis)) == Success(FollowUp(analysis, "Student: " + question))
  {
    UserLine(question);
    SingleMessagePrompt(Obj(map["role" := Str("user"), "content" := Str(question)]), analysis);
  }

}

=== FILE: base.dfy ===
/** Values that may be absent (JavaScript's `null`/`undefined`, Python's
    `None`) and computations that may throw. */
module Base {

  datatype Option<+T> = None | Some(value: T) {

    /** The value, or `default` when absent. */
    function GetOr(default: T): T {
      match this
      case Some(v) => v
      case None => default
    }
  }

  /** A computation that returned `value` or threw `error`. */
  datatype Result<+T, +E> = Success(value: T) | Failure(error: E)
}

=== FILE: conversation.dfy ===
/** The upload-and-chat view (components/UploadAnalyze.tsx): the user picks a
    photo, asks for an initial analysis, then asks follow-up questions.

    The two asynchronous handlers are split at their `await`: `Begin...`
    runs up to the `fetch`, records the request in `inFlight`, and
    `Resolve...` runs the rest once the reply (an input) is there. The file
    reader's result is an input too. */
module Conversation {
  import opened Base
  import opened Text
  import Js
  import Analyze

  datatype Role = User | Assistant

  /** A chat message. `content` is absent when the reply body had no
      `analysis` field (the server's error bodies have none). */
  datatype Message = Message(role: Role, content: Option<string>)

  /** The request whose reply is awaited, with what its continuation captured. */
  datatype Pending =
    | InitialRequest(image: string)
    | FollowUpRequest(image: string, sent: seq<Message>, analysis: Option<string>)

  datatype Chat = Chat(
    image: Option<string>,
    analysis: Option<string>,
    messages: seq<Message>,
    input: string,
    loading: bool,
    inFlight: Option<Pending>)

  /** What the file picker delivered: the reader's data URL, or a failed read
      (the reader's result is then null). */
  datatype FileRead = Loaded(dataUrl: string) | ReadFailed

  /** `fetch` and `response.json()`: the body's `analysis` field (absent in
      error bodies), or a throw from either. */
  datatype Reply = Received(analysis: Option<string>) | Threw

  const AnalysisFailedText: string := "Sorry, analysis failed. Please try again."
  const ReplyFailedText: string := "Sorry, I had trouble responding. Could you try again?"

  const Empty: Chat := Chat(None, None, [], "", false, None)

  /** A string state value that JavaScript treats as true. */
  predicate Present(o: Option<string>) {
    o.Some? && o.value != ""
  }

  /** `isLoading` is set exactly while a request is awaited, and while a
      question is awaited the messages are still the list it was sent with,
      or have been cleared since. */
  predicate Consistent(c: Chat) {
    && (c.loading <==> c.inFlight.Some?)
    && (c.inFlight.Some? && c.inFlight.value.FollowUpRequest? ==>
          c.messages == c.inFlight.value.sent || c.messages == [])
  }

  // ---------------------------------------------------------------------------
  // Handlers

  /** Choosing a file: a new image starts over without analysis or messages;
      no file chosen changes nothing. */
  function SelectImage(c: Chat, file: Option<FileRead>): (r: Chat)
    ensures file.None? ==> r == c
    ensures file.Some? ==> r.analysis.None? && r.messages == []
    ensures file.Some? ==> r.image == (if file.value.Loaded? then Some(file.value.dataUrl) else None)
    ensures r.input == c.input && r.loading == c.loading && r.inFlight == c.inFlight
  {
    match file
    case None => c
    case Some(read) =>
      var image := if read.Loaded? then Some(read.dataUrl) else None;
      c.(image := image, analysis := None, messages := [])
  }

  /** "Analyze Building": nothing happens without an image or while a request
      is awaited; otherwise the initial request goes out. */
  function BeginInitialAnalysis(c: Chat): (r: Chat)
    ensures !Present(c.image) || c.loading ==> r == c
    ensures Present(c.image) && !c.loading ==>
              r == c.(loading := true, inFlight := Some(InitialRequest(c.image.value)))
  {
    if !Present(c.image) || c.loading then c
    else c.(loading := true, inFlight := Some(InitialRequest(c.image.value)))
  }

  /** The initial analysis text the reply yields: the body's field, or the
      fixed apology when the request threw. */
  function AnalysisOf(reply: Reply): (a: Option<string>)
    ensures reply.Threw? ==> a == Some(AnalysisFailedText)
    ensures reply.Received? ==> a == reply.analysis
  {
    match reply
    case Received(a) => a
    case Threw => Some(AnalysisFailedText)
  }

  /** The rest of `handleInitialAnalysis` exactly as the source has it: the
      result is stored whatever the user did meanwhile. */
  function ResolveInitialAnalysisAsWritten(c: Chat, reply: Reply): (r: Chat)
    requires c.inFlight.Some? && c.inFlight.value.InitialRequest?
    ensures r.analysis == AnalysisOf(reply)
    ensures !r.loading && r.inFlight.None?
    ensures r.image == c.image && r.messages == c.messages && r.input == c.input
  {
    c.(analysis := AnalysisOf(reply), loading := false, inFlight := None)
  }

  /** The rest of `handleInitialAnalysis` with the result kept only when the
      image it was requested for is still the one selected. */
  function ResolveInitialAnalysis(c: Chat, reply: Reply): (r: Chat)
    requires c.inFlight.Some? && c.inFlight.value.InitialRequest?
    ensures c.image == Some(c.inFlight.value.image) ==> r.analysis == AnalysisOf(reply)
    ensures r.analysis != c.analysis ==> c.image == Some(c.inFlight.value.image)
    ensures !r.loading && r.inFlight.None?
    ensures r.image == c.image && r.messages == c.messages && r.input == c.input
  {
    var current := c.image == Some(c.inFlight.value.image);
    c.(analysis := if current then AnalysisOf(reply) else c.analysis, loading := false, inFlight := None)
  }

  /** Typing in the question box. */
  function EditInput(c: Chat, text: string): (r: Chat)
    ensures r.input == text && r.(input := c.input) == c
  {
    c.(input := text)
  }

  /** "Send": nothing happens for a blank question, without an image or while
      a request is awaited; otherwise the trimmed question is appended as one
      user message, the box is cleared and the extended list goes out. */
  function BeginSend(c: Chat): (r: Chat)
    ensures Trim(c.input, IsJsSpace) == "" || !Present(c.image) || c.loading ==> r == c
    ensures !(Trim(c.input, IsJsSpace) == "" || !Present(c.image) || c.loading) ==>
      && r.messages == c.messages + [Message(User, Some(Trim(c.input, IsJsSpace)))]
      && r.input == "" && r.loading
      && r.inFlight == Some(FollowUpRequest(c.image.value, r.messages, c.analysis))
      && r.image == c.image && r.analysis == c.analysis
  {
    var question := Trim(c.input, IsJsSpace);
    if question == "" || !Present(c.image) || c.loading then c
    else
      var sent := c.messages + [Message(User, Some(question))];
      c.(input := "", messages := sent, loading := true,
         inFlight := Some(FollowUpRequest(c.image.value, sent, c.analysis)))
  }

  /** The assistant message the reply yields: the body's field, or the fixed
      apology when the request threw. */
  function AnswerOf(reply: Reply): (m: Message)
    ensures m.role == Assistant
    ensures reply.Threw? ==> m.content == Some(ReplyFailedText)
    ensures reply.Received? ==> m.content == reply.analysis
  {
    match reply
    case Received(a) => Message(Assistant, a)
    case Threw => Message(Assistant, Some(ReplyFailedText))
  }

  /** The rest of `handleSendMessage` exactly as the source has it: the list
      captured when sending, plus the answer, replaces the messages. */
  function ResolveSendAsWritten(c: Chat, reply: Reply): (r: Chat)
    requires c.inFlight.Some? && c.inFlight.value.FollowUpRequest?
    ensures r.messages == c.inFlight.value.sent + [AnswerOf(reply)]
    ensures !r.loading && r.inFlight.None?
    ensures r.image == c.image && r.analysis == c.analysis && r.input == c.input
  {
    c.(messages := c.inFlight.value.sent + [AnswerOf(reply)], loading := false, inFlight := None)
  }

  /** The rest of `handleSendMessage`, applied only while the conversation is
      still the one the question was sent from. */
  function ResolveSend(c: Chat, reply: Reply): (r: Chat)
    requires c.inFlight.Some? && c.inFlight.value.FollowUpRequest?
    ensures c.messages == c.inFlight.value.sent ==> r.messages == c.messages + [AnswerOf(reply)]
    ensures c.messages != c.inFlight.value.sent ==> r.messages == c.messages
    ensures !r.loading && r.inFlight.None?
    ensures r.image == c.image && r.analysis == c.analysis && r.input == c.input
  {
    var p := c.inFlight.value;
    var current := c.messages == p.sent;
    c.(messages := if current then c.messages + [AnswerOf(reply)] else c.messages,
       loading := false, inFlight := None)
  }

  /** "Upload Different Image" (shown before an analysis exists): only the
      image goes. */
  function UploadDifferentImage(c: Chat): (r: Chat)
    ensures r.image.None?
    ensures r.(image := c.image) == c
  {
    c.(image := None)
  }

  /** "Analyze Different Building" (shown after an analysis exists): image,
      analysis and messages go. */
  function AnalyzeDifferentBuilding(c: Chat): (r: Chat)
    ensures r.image.None? && r.analysis.None? && r.messages == []
    ensures r.(image := c.image, analysis := c.analysis, messages := c.messages) == c
  {
    c.(image := None, analysis := None, messages := [])
  }

  // ---------------------------------------------------------------------------
  // Properties of one round trip

  /** A send followed by its reply, with nothing in between, adds exactly the
      trimmed question and one answer after the earlier messages, and ends
      with loading off. */
  lemma SendThenReply(c: Chat, reply: Reply)
    requires Trim(c.input, IsJsSpace) != "" && Present(c.image) && !c.loading
    ensures var r := ResolveSendAsWritten(BeginSend(c), reply);
            && r == ResolveSend(BeginSend(c), reply)
            && r.messages == c.messages + [Message(User, Some(Trim(c.input, IsJsSpace))), AnswerOf(reply)]
            && r.messages[..|c.messages|] == c.messages
            && !r.loading && r.input == ""
  {
    var b := BeginSend(c);
    assert b.messages + [AnswerOf(reply)] ==
           c.messages + [Message(User, Some(Trim(c.input, IsJsSpace))), AnswerOf(reply)];
  }

  /** A failed send keeps the history and the question, then apologises. */
  lemma FailedSendKeepsHistory(c: Chat)
    requires Trim(c.input, IsJsSpace) != "" && Present(c.image) && !c.loading
    ensures var r := ResolveSendAsWritten(BeginSend(c), Threw);
            && |r.messages| == |c.messages| + 2
            && r.messages[..|c.messages|] == c.messages
            && r.messages[|c.messages|] == Message(User, Some(Trim(c.input, IsJsSpace)))
            && r.messages[|c.messages| + 1] == Message(Assistant, Some(ReplyFailedText))
  {
    SendThenReply(c, Threw);
  }

  /** The two reset buttons differ exactly in what happens to the analysis
      and the messages. */
  lemma ResetButtonsDiffer(c: Chat)
    ensures UploadDifferentImage(c).image == AnalyzeDifferentBuilding(c).image
    ensures UploadDifferentImage(c).analysis == c.analysis && UploadDifferentImage(c).messages == c.messages
    ensures AnalyzeDifferentBuilding(c) == UploadDifferentImage(c).(analysis := None, messages := [])
  {
  }

  // ---------------------------------------------------------------------------
  // The view as a state machine

  datatype Event =
    | PickFile(file: Option<FileRead>)
    | AnalyzeClicked
    | AnalysisArrived(reply: Reply)
    | Typed(text: string)
    | SendClicked
    | AnswerArrived(reply: Reply)
    | UploadDifferentClicked
    | AnalyzeDifferentClicked

  /** The event can happen: its control is on screen (the file picker before
      an image exists, the analyze and upload-different buttons before an
      analysis exists, the chat and analyze-different after), or the reply
      it delivers is awaited. */
  predicate Enabled(c: Chat, e: Event) {
    match e
    case PickFile(_) => !Present(c.image)
    case AnalyzeClicked => Present(c.image) && !Present(c.analysis) && !c.loading
    case AnalysisArrived(_) => c.inFlight.Some? && c.inFlight.value.InitialRequest?
    case Typed(_) => Present(c.image) && Present(c.analysis) && !c.loading
    case SendClicked => Present(c.image) && Present(c.analysis)
    case AnswerArrived(_) => c.inFlight.Some? && c.inFlight.value.FollowUpRequest?
    case UploadDifferentClicked => Present(c.image) && !Present(c.analysis)
    case AnalyzeDifferentClicked => Present(c.image) && Present(c.analysis)
  }

  /** One event. With `guarded` the replies are resolved by
      `ResolveInitialAnalysis` and `ResolveSend`, which drop a stale reply;
      without it by the source's resolutions as written. */
  function Step(c: Chat, e: Event, guarded: bool): (r: Chat)
    requires Consistent(c)
    ensures Consistent(r)
    ensures !Enabled(c, e) ==> r == c
    ensures Enabled(c, e) && (e.AnalysisArrived? || e.AnswerArrived?) ==> !r.loading
    ensures !(e.AnalysisArrived? || e.AnswerArrived?) && c.loading ==> r.loading
  {
    if !Enabled(c, e) then c
    else
      match e
      case PickFile(f) => SelectImage(c, f)
      case AnalyzeClicked => BeginInitialAnalysis(c)
      case AnalysisArrived(reply) =>
        if guarded then ResolveInitialAnalysis(c, reply) else ResolveInitialAnalysisAsWritten(c, reply)
      case Typed(t) => EditInput(c, t)
      case SendClicked => BeginSend(c)
      case AnswerArrived(reply) =>
        if guarded then ResolveSend(c, reply) else ResolveSendAsWritten(c, reply)
      case UploadDifferentClicked => UploadDifferentImage(c)
      case AnalyzeDifferentClicked => AnalyzeDifferentBuilding(c)
  }

  /** The messages only grow while the image stays: a step either keeps
      them, extends them, or clears them together with the image or the
      analysis. */
  lemma StepKeepsHistory(c: Chat, e: Event, guarded: bool)
    requires Consistent(c)
    ensures var r := Step(c, e, guarded);
            || r.messages == c.messages
            || (|r.messages| > |c.messages| && r.messages[..|c.messages|] == c.messages)
            || (r.messages == [] && (r.image != c.image || r.analysis.None?))
  {
  }

  /** The state after a sequence of events; from `Empty` every state on the
      way is consistent, with either resolution. */
  function Run(c: Chat, events: seq<Event>, guarded: bool): (r: Chat)
    requires Consistent(c)
    ensures Consistent(r)
    decreases |events|
  {
    if |events| == 0 then c else Run(Step(c, events[0], guarded), events[1..], guarded)
  }

  // ---------------------------------------------------------------------------
  // A reply for an image the user has since replaced

  /** As written, an initial analysis requested for one photo is stored after
      the user has switched to another: pick A, analyze, choose "Upload
      Different Image", pick B, and A's analysis arrives. */
  lemma StaleAnalysisLandsAsWritten()
    ensures var c1 := BeginInitialAnalysis(SelectImage(Empty, Some(Loaded("data:image/png;base64,AAAA"))));
            var c2 := SelectImage(UploadDifferentImage(c1), Some(Loaded("data:image/png;base64,BBBB")));
            var c3 := ResolveInitialAnalysisAsWritten(c2, Received(Some("A Gothic cathedral.")));
            && c3.image == Some("data:image/png;base64,BBBB")
            && c3.analysis == Some("A Gothic cathedral.")
            && c2.inFlight == Some(InitialRequest("data:image/png;base64,AAAA"))
  {
  }

  /** With the stale-reply guard of `ResolveInitialAnalysis`, the same
      sequence leaves photo B without an analysis. */
  lemma StaleAnalysisDropped()
    ensures var c1 := BeginInitialAnalysis(SelectImage(Empty, Some(Loaded("data:image/png;base64,AAAA"))));
            var c2 := SelectImage(UploadDifferentImage(c1), Some(Loaded("data:image/png;base64,BBBB")));
            var c3 := ResolveInitialAnalysis(c2, Received(Some("A Gothic cathedral.")));
            c3.image == Some("data:image/png;base64,BBBB") && c3.analysis.None? && !c3.loading
  {
  }

  /** A chat about photo A with a question typed. */
  const AskingAboutA: Chat :=
    Chat(Some("data:image/png;base64,AAAA"), Some("A Byzantine basilica."), [], "Why?", false, None)

  /** As written, an answer to a question about one photo lands on the next:
      ask, choose "Analyze Different Building", pick B, and the old exchange
      becomes B's conversation. */
  lemma StaleAnswerLandsAsWritten()
    ensures var c1 := BeginSend(AskingAboutA);
            var c2 := SelectImage(AnalyzeDifferentBuilding(c1), Some(Loaded("data:image/png;base64,BBBB")));
            var c3 := ResolveSendAsWritten(c2, Received(Some("It spreads the load.")));
            && c3.image == Some("data:image/png;base64,BBBB") && c3.analysis.None?
            && c3.messages == [Message(User, Some("Why?")), Message(Assistant, Some("It spreads the load."))]
  {
    TrimPadded([], "Why?", [], IsJsSpace);
    assert [] + "Why?" + [] == "Why?";
  }

  /** With the stale-reply guard of `ResolveSend`, photo B starts with an
      empty conversation. */
  lemma StaleAnswerDropped()
    ensures var c1 := BeginSend(AskingAboutA);
            var c2 := SelectImage(AnalyzeDifferentBuilding(c1), Some(Loaded("data:image/png;base64,BBBB")));
            var c3 := ResolveSend(c2, Received(Some("It spreads the load.")));
            c3.image == Some("data:image/png;base64,BBBB") && c3.messages == [] && !c3.loading
  {
    TrimPadded([], "Why?", [], IsJsSpace);
    assert [] + "Why?" + [] == "Why?";
  }

  // ---------------------------------------------------------------------------
  // What the view sends to the analyze endpoint

  function MessageValue(m: Message): Js.Value {
    var role := Js.Str(if m.role == User then "user" else "assistant");
    match m.content
    case Some(t) => Js.Obj(map["role" := role, "content" := Js.Str(t)])
    case None => Js.Obj(map["role" := role])
  }

  /** The JSON body of the request, as the endpoint parses it back;
      `JSON.stringify` drops fields whose value is undefined. The initial
      request carries the image and a true `isInitial`; a follow-up carries
      the image, every sent message in order, and the analysis (`null` when
      there is none), and no `isInitial`. */
  function RequestBody(p: Pending): (r: Js.Value)
    ensures Js.Get(r, "image") == Some(Js.Str(p.image))
    ensures Js.Truthy(Js.Get(r, "isInitial").value) <==> p.InitialRequest?
    ensures p.FollowUpRequest? ==>
              && Js.Get(r, "messages") == Some(Js.Arr(seq(|p.sent|, i requires 0 <= i < |p.sent| => MessageValue(p.sent[i]))))
              && Js.Get(r, "initialAnalysis") == Some(if p.analysis.Some? then Js.Str(p.analysis.value) else Js.Null)
  {
    match p
    case InitialRequest(image) =>
      Js.Obj(map["image" := Js.Str(image), "isInitial" := Js.Bool(true)])
    case FollowUpRequest(image, sent, analysis) =>
      Js.Obj(map["image" := Js.Str(image),
                 "messages" := Js.Arr(seq(|sent|, i requires 0 <= i < |sent| => MessageValue(sent[i]))),
                 "initialAnalysis" := if analysis.Some? then Js.Str(analysis.value) else Js.Null])
  }

  /** The line the endpoint writes for a message of this view. */
  function LineOf(m: Message): string {
    (if m.role == User then "Student: " else "You: ")
    + (if m.content.Some? then m.content.value else "undefined")
  }

  lemma RenderMessageValue(m: Message)
    ensures Analyze.RenderMessage(MessageValue(m)) == Success(LineOf(m))
  {
    var v := MessageValue(m);
    assert Js.Get(v, "role") == Some(Js.Str(if m.role == User then "user" else "assistant"));
    if m.content.Some? {
      assert Js.Get(v, "content") == Some(Js.Str(m.content.value));
    } else {
      assert Js.Get(v, "content") == Some(Js.Undefined);
    }
  }

  /** The lines the endpoint writes for the messages this view sends. */
  function LinesOf(sent: seq<Message>): seq<string> {
    seq(|sent|, i requires 0 <= i < |sent| => LineOf(sent[i]))
  }

  /** The transcript the endpoint builds from the messages this view sends:
      one line per message, in order. */
  lemma TranscriptOfSent(sent: seq<Message>)
    ensures var items := seq(|sent|, i requires 0 <= i < |sent| => MessageValue(sent[i]));
            Analyze.Transcript(Js.Arr(items)) ==
              Success(Join(LinesOf(sent), Analyze.LineSeparator))
  {
    var items := seq(|sent|, i requires 0 <= i < |sent| => MessageValue(sent[i]));
    forall i | 0 <= i < |sent| ensures Analyze.RenderMessage(items[i]) == Success(LineOf(sent[i])) {
      RenderMessageValue(sent[i]);
    }
    var lines := Analyze.RenderMessages(items).value;
    assert lines == LinesOf(sent);
  }

  /** The lines of the sent messages are the earlier lines and then the
      question's. */
  lemma {:induction false} LastLineIsQuestion(earlier: seq<Message>, q: string)
    ensures var sent := earlier + [Message(User, Some(q))];
            EndsWith(Join(LinesOf(sent), Analyze.LineSeparator), "Student: " + q)
  {
    var sent := earlier + [Message(User, Some(q))];
    var lines := LinesOf(sent);
    var before := LinesOf(earlier);
    assert LineOf(sent[|earlier|]) == "Student: " + q;
    assert lines == before + ["Student: " + q];
    var history := Join(lines, Analyze.LineSeparator);
    if |before| == 0 {
      assert lines == ["Student: " + q];
    } else {
      JoinSnoc(before, "Student: " + q, Analyze.LineSeparator);
    }
    assert history[|history| - |"Student: " + q|..] == "Student: " + q;
  }

  /** A follow-up from this view reaches the model with the image's media
      type and data, the smaller budget, and a follow-up prompt over the
      analysis (`null` when there is none) and the lines of the sent
      messages. */
  lemma FollowUpBodyPrepared(p: Pending, uri: Analyze.DataUri)
    requires p.FollowUpRequest? && Analyze.ParseDataUri(p.image) == Some(uri)
    ensures Analyze.Prepare(Analyze.Parsed(RequestBody(p))) ==
            Analyze.Call(Analyze.ModelRequest(uri.mediaType, uri.data,
              Analyze.FollowUp(if p.analysis.Some? then p.analysis.value else "null",
                               Join(LinesOf(p.sent), Analyze.LineSeparator)),
              Analyze.FollowUpMaxTokens))
  {
    TranscriptOfSent(p.sent);
  }

  /** A question sent from this view reaches the model in a follow-up
      prompt whose transcript ends with the question's `Student:` line, with
      the smaller budget. */
  lemma SentQuestionEndsPrompt(c: Chat, uri: Analyze.DataUri)
    requires Trim(c.input, IsJsSpace) != "" && Present(c.image) && !c.loading
    requires Analyze.ParseDataUri(c.image.value) == Some(uri)
    ensures var b := BeginSend(c);
            var q := Trim(c.input, IsJsSpace);
            var stage := Analyze.Prepare(Analyze.Parsed(RequestBody(b.inFlight.value)));
            && stage.Call?
            && stage.request.maxTokens == Analyze.FollowUpMaxTokens
            && stage.request.mediaType == uri.mediaType && stage.request.data == uri.data
            && stage.request.prompt.FollowUp?
            && EndsWith(stage.request.prompt.history, "Student: " + q)
  {
    var b := BeginSend(c);
    var q := Trim(c.input, IsJsSpace);
    assert b.inFlight.value.sent == c.messages + [Message(User, Some(q))];
    FollowUpBodyPrepared(b.inFlight.value, uri);
    LastLineIsQuestion(c.messages, q);
  }

  /** The initial request of this view reaches the model with the fixed
      initial prompt and the larger budget. */
  lemma InitialRequestPrompt(c: Chat, uri: Analyze.DataUri)
    requires Present(c.image) && !c.loading
    requires Analyze.ParseDataUri(c.image.value) == Some(uri)
    ensures var b := BeginInitialAnalysis(c);
            Analyze.Prepare(Analyze.Parsed(RequestBody(b.inFlight.value))) ==
              Analyze.Call(Analyze.ModelRequest(uri.mediaType, uri.data, Analyze.Initial, Analyze.InitialMaxTokens))
  {
    var body := RequestBody(BeginInitialAnalysis(c).inFlight.value);
    assert Js.Get(body, "image") == Some(Js.Str(c.image.value));
    assert Js.Get(body, "isInitial") == Some(Js.Bool(true));
  }

}

=== FILE: generate.dfy ===
/** The catalog generator script (generate_buildings.py): one model call per
    requested building, the reply's code fence stripped, the entries that
    parse appended to the catalog, the rest reported as failed.

    The model call, `json.loads` and the file are inputs here: a
    `Completion` per request and a `parse` function. */
module Generate {
  import opened Base
  import opened Text

  const Fence: string := "```"
  const JsonTag: string := "json"

  /** A backtick fence starts at `k`. */
  predicate FenceAt(s: string, k: nat) {
    k + 2 < |s| && s[k] == '`' && s[k + 1] == '`' && s[k + 2] == '`'
  }

  predicate FenceFree(s: string) {
    forall k: nat | k < |s| :: !FenceAt(s, k)
  }

  lemma OccursAtIsFence(s: string, k: nat)
    ensures OccursAt(s, Fence, k) <==> FenceAt(s, k)
  {
    if k + 3 <= |s| {
      assert s[k..k + 3] == [s[k], s[k + 1], s[k + 2]];
    }
  }

  /** `s.split("```")[1]` for an `s` that starts with a fence: what lies
      between the opening fence and the next one, or the end. */
  function FencedPart(s: string): (r: string)
    requires StartsWith(s, Fence)
    ensures StartsWith(s, Fence + r)
    ensures 3 + |r| == |s| || FenceAt(s, 3 + |r|)
    ensures FenceFree(r)
    ensures forall k :: 3 <= k < 3 + |r| ==> !FenceAt(s, k)
  {
    var end := match FindFrom(s, Fence, 3)
               case Some(k) => k
               case None => |s|;
    var r := s[3..end];
    assert s[..3 + |r|] == Fence + r;
    assert 3 + |r| == |s| || FenceAt(s, 3 + |r|) by {
      if end < |s| { OccursAtIsFence(s, end); }
    }
    assert FenceFree(r) by {
      forall k: nat ensures !FenceAt(r, k) {
        OccursAtIsFence(s, 3 + k);
      }
    }
    assert forall k :: 3 <= k < 3 + |r| ==> !FenceAt(s, k) by {
      forall k | 3 <= k < 3 + |r| ensures !FenceAt(s, k) {
        OccursAtIsFence(s, k);
      }
    }
    r
  }

  /** A fenced part without its leading `json` tag, if it has one. */
  function Untag(s: string): (r: string)
    ensures StartsWith(s, JsonTag) ==> s == JsonTag + r
    ensures !StartsWith(s, JsonTag) ==> r == s
  {
    if StartsWith(s, JsonTag) then s[4..] else s
  }

  /** The reply text as `json.loads` receives it: trimmed, and when it starts
      with a fence, the fenced part without a leading `json` tag, trimmed
      again. */
  function StripFences(text: string): (r: string)
    ensures |r| <= |text|
    ensures Bare(r, IsPySpace)
    ensures !StartsWith(Trim(text, IsPySpace), Fence) ==> r == Trim(text, IsPySpace)
    ensures StartsWith(Trim(text, IsPySpace), Fence) ==>
              r == Trim(Untag(FencedPart(Trim(text, IsPySpace))), IsPySpace)
  {
    var s := Trim(text, IsPySpace);
    if StartsWith(s, Fence) then Trim(Untag(FencedPart(s)), IsPySpace)
    else s
  }

  /** The text between the fences of a tagged or untagged block has no
      fence in it, and ends with the line break before the closing fence. */
  lemma {:induction false} FenceFreeBlock(tag: string, json: string)
    requires tag == "" || tag == JsonTag
    requires FenceFree(json)
    ensures FenceFree(tag + "\n" + json + "\n")
  {
    var m := tag + "\n" + json + "\n";
    assert |m| == |tag| + |json| + 2;
    forall k: nat | k < |m| ensures !FenceAt(m, k) {
      if k < |tag| {
        assert m[k] == tag[k];
      } else if k == |tag| {
        assert m[k] == '\n';
      } else if k + 2 < |m| - 1 {
        var j := k - |tag| - 1;
        assert m[k] == json[j] && m[k + 1] == json[j + 1] && m[k + 2] == json[j + 2];
        assert !FenceAt(json, j);
      } else if k + 2 == |m| - 1 {
        assert m[k + 2] == '\n';
      }
    }
  }

  /** With a fence-free body that does not end in a backtick, the closing
      fence is the first fence after the opening one. */
  lemma {:induction false} ClosingFenceFirst(m: string)
    requires FenceFree(m) && (|m| > 0 ==> m[|m| - 1] != '`')
    ensures FencedPart(Fence + m + Fence) == m
  {
    var x := Fence + m + Fence;
    assert forall i :: 0 <= i < |m| ==> x[3 + i] == m[i];
    OccursAtIsFence(x, 3 + |m|);
    forall k: nat | 3 <= k < 3 + |m| ensures !OccursAt(x, Fence, k) {
      OccursAtIsFence(x, k);
      if k + 2 < 3 + |m| {
        assert !FenceAt(m, k - 3);
      } else if k == 3 + |m| - 1 {
        assert x[k] == m[|m| - 1];
      } else {
        assert x[k + 1] == m[|m| - 1];
      }
    }
    assert FindFrom(x, Fence, 3) == Some(3 + |m|);
  }

  /** Dropping the tag leaves the line-broken JSON. */
  lemma TagDropped(tag: string, json: string)
    requires tag == "" || tag == JsonTag
    ensures Untag(tag + "\n" + json + "\n") == "\n" + json + "\n"
  {
    var m := tag + "\n" + json + "\n";
    if tag == JsonTag {
      assert m[..4] == JsonTag && m[4..] == "\n" + json + "\n";
    } else {
      assert m == "\n" + json + "\n" && m[0] == '\n';
    }
  }

  /** A text that trims to a fenced block yields the block's body, untagged
      and trimmed. */
  lemma StripFencedBlock(text: string, m: string)
    requires FenceFree(m) && (|m| > 0 ==> m[|m| - 1] != '`')
    requires Trim(text, IsPySpace) == Fence + m + Fence
    ensures StripFences(text) == Trim(Untag(m), IsPySpace)
  {
    assert (Fence + m + Fence)[..3] == Fence;
    ClosingFenceFirst(m);
  }

  /** A text that trims to a fenced block whose untagged body is the JSON
      between two line breaks yields that JSON. */
  lemma StripLineBrokenBlock(text: string, m: string, json: string)
    requires FenceFree(m)
    requires Trim(text, IsPySpace) == Fence + m + Fence
    requires Untag(m) == "\n" + json + "\n"
    requires Bare(json, IsPySpace)
    ensures StripFences(text) == json
  {
    assert m[|m| - 1] == Untag(m)[|Untag(m)| - 1];
    StripFencedBlock(text, m);
    TrimPadded("\n", json, "\n", IsPySpace);
  }

  /** JSON fenced on one line, without a tag, comes out exactly. */
  lemma OneLineBlock(json: string)
    requires Bare(json, IsPySpace) && FenceFree(json)
    requires |json| > 0 && json[|json| - 1] != '`' && !StartsWith(json, JsonTag)
    ensures StripFences(Fence + json + Fence) == json
  {
    var x := Fence + json + Fence;
    assert x[0] == '`' && x[|x| - 1] == '`';
    TrimPadded([], x, [], IsPySpace);
    assert [] + x + [] == x;
    StripFencedBlock(x, json);
    TrimPadded([], json, [], IsPySpace);
    assert [] + json + [] == json;
  }

  /** JSON wrapped in a fence, with or without the `json` tag and surrounded
      by any whitespace, comes out exactly. */
  lemma FenceRoundTrip(lead: string, tag: string, json: string, trail: string)
    requires AllSpace(lead, IsPySpace) && AllSpace(trail, IsPySpace)
    requires tag == "" || tag == JsonTag
    requires Bare(json, IsPySpace) && FenceFree(json)
    ensures StripFences(lead + Fence + tag + "\n" + json + "\n" + Fence + trail) == json
  {
    var m := tag + "\n" + json + "\n";
    var x := Fence + m + Fence;
    var text := lead + Fence + tag + "\n" + json + "\n" + Fence + trail;
    assert text == lead + x + trail;
    assert x[0] == '`' && x[|x| - 1] == '`';
    TrimPadded(lead, x, trail, IsPySpace);
    FenceFreeBlock(tag, json);
    TagDropped(tag, json);
    StripLineBrokenBlock(text, m, json);
  }

  /** A reply without a fence is only trimmed. */
  lemma UnfencedUntouched(lead: string, json: string, trail: string)
    requires AllSpace(lead, IsPySpace) && AllSpace(trail, IsPySpace)
    requires Bare(json, IsPySpace) && !StartsWith(json, Fence)
    ensures StripFences(lead + json + trail) == json
  {
    TrimPadded(lead, json, trail, IsPySpace);
  }

  // ---------------------------------------------------------------------------
  // Generating the entries

  /** One requested building. */
  datatype Request = Request(name: string, style: string)

  /** What the model call yielded: the reply's content blocks (`None` for a
      block that has no text), or an exception. */
  datatype Completion = Blocks(blocks: seq<Option<string>>) | Raised

  /** The entry a completion yields, `None` when `generate_building_entry`
      raises: the call failed, the reply has no first block or no text in
      it, or the stripped text does not parse. */
  function Entry<E>(c: Completion, parse: string -> Option<E>): (r: Option<E>)
    ensures c.Raised? ==> r.None?
    ensures c.Blocks? && (|c.blocks| == 0 || c.blocks[0].None?) ==> r.None?
    ensures r.Some? ==> c.Blocks? && |c.blocks| > 0 && c.blocks[0].Some?
    ensures r.Some? ==> r == parse(StripFences(c.blocks[0].value))
    ensures c.Blocks? && |c.blocks| > 0 && c.blocks[0].Some? ==> r == parse(StripFences(c.blocks[0].value))
  {
    match c
    case Raised => None
    case Blocks(blocks) =>
      if |blocks| == 0 || blocks[0].None? then None
      else parse(StripFences(blocks[0].value))
  }

  /** The outcome of each request, in request order. */
  function Outcomes<E>(completions: seq<Completion>, parse: string -> Option<E>): (r: seq<Option<E>>)
    ensures |r| == |completions|
    ensures forall i :: 0 <= i < |r| ==> r[i] == Entry(completions[i], parse)
  {
    seq(|completions|, i requires 0 <= i < |completions| => Entry(completions[i], parse))
  }

  /** Reference: the entries generated, in request order. */
  function Generated<E>(outcomes: seq<Option<E>>): seq<E>
  {
    if |outcomes| == 0 then []
    else
      var last := outcomes[|outcomes| - 1];
      Generated(outcomes[..|outcomes| - 1]) + (if last.Some? then [last.value] else [])
  }

  /** Reference: the requests that failed, in request order. */
  function Failed<E>(requests: seq<Request>, outcomes: seq<Option<E>>): seq<Request>
    requires |outcomes| == |requests|
  {
    if |requests| == 0 then []
    else
      var n := |requests| - 1;
      Failed(requests[..n], outcomes[..n]) + (if outcomes[n].None? then [requests[n]] else [])
  }

  /** One more outcome extends the generated entries by its entry, if any. */
  lemma GeneratedSnoc<E>(outcomes: seq<Option<E>>, i: nat)
    requires i < |outcomes|
    ensures Generated(outcomes[..i + 1])
            == Generated(outcomes[..i]) + (if outcomes[i].Some? then [outcomes[i].value] else [])
  {
    assert outcomes[..i + 1][..i] == outcomes[..i];
  }

  /** One more outcome extends the failed requests by its request, if it failed. */
  lemma FailedSnoc<E>(requests: seq<Request>, outcomes: seq<Option<E>>, i: nat)
    requires |outcomes| == |requests| && i < |requests|
    ensures Failed(requests[..i + 1], outcomes[..i + 1])
            == Failed(requests[..i], outcomes[..i]) + (if outcomes[i].None? then [requests[i]] else [])
  {
    assert requests[..i + 1][..i] == requests[..i];
    assert outcomes[..i + 1][..i] == outcomes[..i];
  }

  /** Every request ends up in exactly one of the two lists. */
  lemma {:induction false} EveryRequestAccounted<E>(requests: seq<Request>, outcomes: seq<Option<E>>)
    requires |outcomes| == |requests|
    ensures |Generated(outcomes)| + |Failed(requests, outcomes)| == |requests|
    decreases |requests|
  {
    if |requests| > 0 {
      var n := |requests| - 1;
      EveryRequestAccounted(requests[..n], outcomes[..n]);
    }
  }

  /** The loop of `main`: each request in turn, a successful entry to
      `generated`, a failed request to `failed`, and a pause between
      consecutive requests. */
  method GenerateAll<E>(requests: seq<Request>, completions: seq<Completion>, parse: string -> Option<E>)
    returns (generated: seq<E>, failed: seq<Request>, pauses: nat)
    requires |completions| == |requests|
    ensures generated == Generated(Outcomes(completions, parse))
    ensures failed == Failed(requests, Outcomes(completions, parse))
    ensures pauses == if |requests| == 0 then 0 else |requests| - 1
  {
    var outcomes := Outcomes(completions, parse);
    generated, failed, pauses := [], [], 0;
    var i := 0;
    while i < |requests|
      invariant 0 <= i <= |requests|
      invariant generated == Generated(outcomes[..i])
      invariant failed == Failed(requests[..i], outcomes[..i])
      invariant pauses + (if 0 < i == |requests| then 1 else 0) == i
    {
      var entry := Entry(completions[i], parse);
      assert entry == outcomes[i];
      GeneratedSnoc(outcomes, i);
      FailedSnoc(requests, outcomes, i);
      if entry.Some? {
        generated := generated + [entry.value];
      } else {
        failed := failed + [requests[i]];
      }
      if i + 1 < |requests| {
        pauses := pauses + 1;
      }
      i := i + 1;
    }
    assert requests[..i] == requests;
    assert outcomes[..i] == outcomes;
  }

  /** The catalog the script writes, `None` when it writes nothing because
      no entry was generated. */
  function Merge<E>(existing: seq<E>, generated: seq<E>): (r: Option<seq<E>>)
    ensures r.None? <==> generated == []
    ensures r.Some? ==> |r.value| == |existing| + |generated|
    ensures r.Some? ==> r.value[..|existing|] == existing && r.value[|existing|..] == generated
  {
    if generated == [] then None else Some(existing + generated)
  }

  /** The catalog on disk after a run: earlier entries are never lost, and
      exactly one entry is added per request that did not fail. */
  lemma {:induction false} RunKeepsCatalog<E>(existing: seq<E>, requests: seq<Request>, completions: seq<Completion>, parse: string -> Option<E>)
    requires |completions| == |requests|
    ensures var outcomes := Outcomes(completions, parse);
            var after := Merge(existing, Generated(outcomes)).GetOr(existing);
            && after[..|existing|] == existing
            && |after| == |existing| + |requests| - |Failed(requests, outcomes)|
  {
    EveryRequestAccounted(requests, Outcomes(completions, parse));
  }
}

=== FILE: jsvalue.dfy ===
/** The JavaScript values the analyze endpoint receives from `request.json()`,
    with the three language rules the endpoint relies on: truthiness, property
    reads (which throw on `null` and `undefined`) and the string conversion a
    template literal `${...}` applies. Numbers are restricted to integers. */
module Js {
  import opened Base
  import opened Text

  datatype Value =
    | Undefined
    | Null
    | Bool(b: bool)
    | Num(n: int)
    | Str(s: string)
    | Arr(items: seq<Value>)
    | Obj(fields: map<string, Value>)

  /** JavaScript truthiness: `undefined`, `null`, `false`, `0` and `""` are falsy. */
  predicate Truthy(v: Value) {
    match v
    case Undefined => false
    case Null => false
    case Bool(b) => b
    case Num(n) => n != 0
    case Str(s) => s != ""
    case Arr(_) => true
    case Obj(_) => true
  }

  /** Reading property `key` (a name that is not a built-in property of any
      prototype) of `v`; `None` is the TypeError thrown for `undefined` and
      `null`. Values other than objects have no such property. */
  function Get(v: Value, key: string): (r: Option<Value>)
    ensures r.None? <==> v.Undefined? || v.Null?
    ensures v.Obj? ==> r == Some(if key in v.fields then v.fields[key] else Undefined)
  {
    match v
    case Undefined => None
    case Null => None
    case Obj(fields) => Some(if key in fields then fields[key] else Undefined)
    case _ => Some(Undefined)
  }

  /** `String(v)` throws a TypeError: an object with its own `toString`
      key (in a parsed JSON value never a function, and the inherited
      `valueOf` yields no primitive), or an array with such an element. */
  predicate NoText(v: Value)
    decreases v
  {
    match v
    case Obj(fields) => "toString" in fields
    case Arr(items) => exists i :: 0 <= i < |items| && NoText(items[i])
    case _ => false
  }

  /** The text a template literal inserts for `v`: `String(v)`, or `None`
      when that throws. Arrays join their elements with `,`, writing `null`
      and `undefined` elements as nothing; other objects read
      `[object Object]`. */
  function ToText(v: Value): (r: Option<string>)
    ensures r.None? <==> NoText(v)
    ensures v.Undefined? ==> r == Some("undefined")
    ensures v.Null? ==> r == Some("null")
    ensures v.Str? ==> r == Some(v.s)
    ensures v.Bool? ==> r == Some(if v.b then "true" else "false")
    ensures v.Num? ==> r == Some(IntToDecimal(v.n))
    ensures v.Obj? && "toString" !in v.fields ==> r == Some("[object Object]")
    ensures v.Arr? && !NoText(v) ==>
              r == Some(Join(seq(|v.items|, i requires 0 <= i < |v.items| => ElementText(v.items[i]).GetOr("")), ","))
    decreases v, 0
  {
    match v
    case Undefined => Some("undefined")
    case Null => Some("null")
    case Bool(b) => Some(if b then "true" else "false")
    case Num(n) => Some(IntToDecimal(n))
    case Str(s) => Some(s)
    case Arr(items) =>
      var parts := seq(|items|, i requires 0 <= i < |items| => ElementText(items[i]));
      assert forall i :: 0 <= i < |items| ==> (parts[i].None? <==> NoText(items[i]));
      if exists i :: 0 <= i < |parts| && parts[i].None? then None
      else
        var texts := seq(|parts|, i requires 0 <= i < |parts| => parts[i].GetOr(""));
        assert texts == seq(|items|, i requires 0 <= i < |items| => ElementText(items[i]).GetOr(""));
        Some(Join(texts, ","))
    case Obj(fields) => if "toString" in fields then None else Some("[object Object]")
  }

  /** The text `Array.prototype.join` writes for one element: nothing for
      `null` and `undefined`, the element's own text otherwise. */
  function ElementText(v: Value): (r: Option<string>)
    ensures r.None? <==> NoText(v)
    ensures v.Undefined? || v.Null? ==> r == Some("")
    decreases v, 1
  {
    if v.Undefined? || v.Null? then Some("") else ToText(v)
  }

  /** An array's text grows by one element at a time: the text of the
      elements so far, a comma when there were any, and the new element's
      text. */
  lemma ArrayTextSnoc(items: seq<Value>, x: Value)
    requires !NoText(Arr(items)) && !NoText(x)
    ensures !NoText(Arr(items + [x]))
    ensures ToText(Arr([])) == Some("")
    ensures ToText(Arr(items + [x])).value ==
              (if |items| == 0 then "" else ToText(Arr(items)).value + ",") + ElementText(x).value
  {
    var all := items + [x];
    assert forall i :: 0 <= i < |all| ==> !NoText(all[i]) by {
      forall i | 0 <= i < |all| ensures !NoText(all[i]) {
        if i < |items| { assert all[i] == items[i]; }
      }
    }
    var f := seq(|items|, i requires 0 <= i < |items| => ElementText(items[i]).GetOr(""));
    var g := seq(|all|, i requires 0 <= i < |all| => ElementText(all[i]).GetOr(""));
    assert g == f + [ElementText(x).value];
    if |items| == 0 {
      assert g == [ElementText(x).value];
    } else {
      JoinSnoc(f, ElementText(x).value, ",");
    }
  }
}

=== FILE: quiz.dfy ===
/** The quiz view (components/Quiz.tsx): a session walks a shuffled copy of
    the building catalog; for each building it asks a style question and then
    an engineering question, counting every answer and every correct one.

    Each React click handler is a function from the session to the next
    session. The options effect, which React runs after the building index
    changes, is folded into the transition that changes the index; the random
    coin flips of the shuffles are `Draw` inputs. */
module Quiz {
  import opened Base
  import Shuffle

  datatype Building = Building(
    id: string,
    name: string,
    imageUrl: string,
    style: string,
    styleDistractors: seq<string>,
    era: string,
    styleExplanation: string,
    engineeringQuestion: string,
    engineeringAnswer: string,
    engineeringDistractors: seq<string>,
    engineeringExplanation: string,
    funFacts: seq<string>,
    difficulty: string)

  datatype Stage = StyleQuestion | StyleAnswer | EngineeringQuestion | EngineeringAnswer | Complete

  datatype Score = Score(correct: nat, total: nat)

  /** The coin flips of one run of the options effect, one draw per list. */
  datatype Draw = Draw(style: seq<(nat, nat)>, engineering: seq<(nat, nat)>)

  datatype Session = Session(
    buildings: seq<Building>,
    index: nat,
    stage: Stage,
    styleOptions: seq<string>,
    engineeringOptions: seq<string>,
    selectedStyle: Option<string>,
    selectedEngineering: Option<string>,
    score: Score,
    showName: bool)

  /** Clicks on the buttons the view renders. */
  datatype Event =
    | AnswerStyle(answer: string)
    | ContinueToEngineering
    | AnswerEngineering(answer: string)
    | Next(draw: Draw)
    | Restart(draw: Draw)
    | ToggleName

  function Current(s: Session): Building
    requires s.index < |s.buildings|
  {
    s.buildings[s.index]
  }

  // ---------------------------------------------------------------------------
  // Answer options

  /** `opts` offers exactly the distractors and the correct answer, in some order. */
  predicate OptionsOf(opts: seq<string>, distractors: seq<string>, answer: string) {
    multiset(opts) == multiset(distractors + [answer])
  }

  /** One option list of the effect: the distractors followed by the correct
      answer, shuffled. */
  function Options(distractors: seq<string>, answer: string, draw: seq<(nat, nat)>): (r: seq<string>)
    ensures OptionsOf(r, distractors, answer)
    ensures |r| == |distractors| + 1
    ensures answer in r
    ensures forall x :: x in distractors ==> x in r
  {
    var r := Shuffle.Shuffle(distractors + [answer], draw);
    assert answer in multiset(distractors + [answer]);
    assert forall x :: x in distractors ==> x in multiset(distractors + [answer]);
    r
  }

  /** When the record's distractors do not repeat the answer, the answer is
      offered exactly once. */
  lemma AnswerOfferedOnce(distractors: seq<string>, answer: string, draw: seq<(nat, nat)>)
    requires answer !in distractors
    ensures multiset(Options(distractors, answer, draw))[answer] == 1
  {
    assert multiset(distractors)[answer] == 0;
    assert multiset(distractors + [answer]) == multiset(distractors) + multiset{answer};
  }

  /** The options effect for the building at the current index. */
  function ShowOptions(s: Session, d: Draw): (r: Session)
    requires s.index < |s.buildings|
    ensures r == s.(styleOptions := r.styleOptions, engineeringOptions := r.engineeringOptions)
    ensures OptionsOf(r.styleOptions, Current(s).styleDistractors, Current(s).style)
    ensures OptionsOf(r.engineeringOptions, Current(s).engineeringDistractors, Current(s).engineeringAnswer)
  {
    var b := Current(s);
    s.(styleOptions := Options(b.styleDistractors, b.style, d.style),
       engineeringOptions := Options(b.engineeringDistractors, b.engineeringAnswer, d.engineering))
  }

  // ---------------------------------------------------------------------------
  // Session invariant

  /** Answers given for the current building by the time `st` is shown. */
  function StageAnswers(st: Stage): nat {
    match st
    case StyleQuestion => 0
    case StyleAnswer => 1
    case EngineeringQuestion => 1
    case EngineeringAnswer => 2
    case Complete => 2
  }

  /** Answers given since the session started or was restarted: two per
      building passed plus those for the current building. */
  function AnswersGiven(s: Session): nat {
    2 * s.index + StageAnswers(s.stage)
  }

  /** What holds of every session the view can show. */
  predicate Valid(s: Session) {
    && 0 < |s.buildings|
    && s.index < |s.buildings|
    && (s.stage == Complete ==> s.index == |s.buildings| - 1)
    && s.score.correct <= s.score.total
    && s.score.total == AnswersGiven(s)
    && (s.selectedStyle.Some? <==> s.stage != StyleQuestion)
    && (s.selectedEngineering.Some? <==> s.stage in {EngineeringAnswer, Complete})
    && OptionsOf(s.styleOptions, Current(s).styleDistractors, Current(s).style)
    && OptionsOf(s.engineeringOptions, Current(s).engineeringDistractors, Current(s).engineeringAnswer)
  }

  /** Entering quiz mode: the catalog is shuffled once for the whole session
      and the first building's options are drawn. An empty catalog leaves no
      building to show (the view then fails reading the missing building). */
  function Start(catalog: seq<Building>, order: seq<(nat, nat)>, d: Draw): (r: Option<Session>)
    ensures r.Some? <==> |catalog| > 0
    ensures r.Some? ==> Valid(r.value)
    ensures r.Some? ==> multiset(r.value.buildings) == multiset(catalog)
    ensures r.Some? ==> r.value.index == 0 && r.value.stage == StyleQuestion
    ensures r.Some? ==> r.value.score == Score(0, 0) && !r.value.showName
  {
    var buildings := Shuffle.Shuffle(catalog, order);
    if |buildings| == 0 then None
    else Some(ShowOptions(Session(buildings, 0, StyleQuestion, [], [], None, None, Score(0, 0), false), d))
  }

  // ---------------------------------------------------------------------------
  // Click handlers; each requires the stage in which its button is rendered

  /** One more answer, counted as correct exactly when it is. */
  function Tally(score: Score, correct: bool): (r: Score)
    ensures r.total == score.total + 1
    ensures r.correct == score.correct + 1 <==> correct
    ensures !correct ==> r.correct == score.correct
  {
    if correct then Score(score.correct + 1, score.total + 1)
    else score.(total := score.total + 1)
  }

  function HandleStyleAnswer(s: Session, answer: string): (r: Session)
    requires s.stage == StyleQuestion && s.index < |s.buildings|
    ensures r.stage == StyleAnswer && r.selectedStyle == Some(answer)
    ensures r.score.total == s.score.total + 1
    ensures r.score.correct == s.score.correct + 1 <==> answer == Current(s).style
    ensures answer != Current(s).style ==> r.score.correct == s.score.correct
    ensures r == s.(stage := StyleAnswer, selectedStyle := Some(answer), score := r.score)
  {
    s.(selectedStyle := Some(answer), stage := StyleAnswer,
       score := Tally(s.score, answer == Current(s).style))
  }

  function HandleContinueToEngineering(s: Session): (r: Session)
    requires s.stage == StyleAnswer
    ensures r == s.(stage := EngineeringQuestion)
  {
    s.(stage := EngineeringQuestion)
  }

  function HandleEngineeringAnswer(s: Session, answer: string): (r: Session)
    requires s.stage == EngineeringQuestion && s.index < |s.buildings|
    ensures r.stage == EngineeringAnswer && r.selectedEngineering == Some(answer)
    ensures r.score.total == s.score.total + 1
    ensures r.score.correct == s.score.correct + 1 <==> answer == Current(s).engineeringAnswer
    ensures answer != Current(s).engineeringAnswer ==> r.score.correct == s.score.correct
    ensures r == s.(stage := EngineeringAnswer, selectedEngineering := Some(answer), score := r.score)
  {
    s.(selectedEngineering := Some(answer), stage := EngineeringAnswer,
       score := Tally(s.score, answer == Current(s).engineeringAnswer))
  }

  /** Advancing from the engineering answer: to the next building's style
      question, or to the final screen after the last building. */
  function HandleNext(s: Session, d: Draw): (r: Session)
    requires s.stage == EngineeringAnswer && s.index < |s.buildings|
    ensures s.index < |s.buildings| - 1 ==>
      && r.index == s.index + 1 && r.stage == StyleQuestion
      && r.selectedStyle.None? && r.selectedEngineering.None? && !r.showName
      && r.score == s.score && r.buildings == s.buildings
      && OptionsOf(r.styleOptions, s.buildings[s.index + 1].styleDistractors, s.buildings[s.index + 1].style)
      && OptionsOf(r.engineeringOptions, s.buildings[s.index + 1].engineeringDistractors,
                   s.buildings[s.index + 1].engineeringAnswer)
    ensures s.index == |s.buildings| - 1 ==> r == s.(stage := Complete)
  {
    if s.index < |s.buildings| - 1 then
      ShowOptions(s.(index := s.index + 1, stage := StyleQuestion, selectedStyle := None,
                     selectedEngineering := None, showName := false), d)
    else
      s.(stage := Complete)
  }

  /** "Try Again": back to the first building with a zero score, keeping the
      session's building order. React re-runs the options effect only when
      the index changes, so a restart from index 0 keeps the options shown. */
  function HandleRestart(s: Session, d: Draw): (r: Session)
    requires s.stage == Complete && 0 < |s.buildings|
    ensures r.index == 0 && r.stage == StyleQuestion && r.buildings == s.buildings
    ensures r.selectedStyle.None? && r.selectedEngineering.None?
    ensures r.score == Score(0, 0) && !r.showName
    ensures s.index == 0 ==> r.styleOptions == s.styleOptions && r.engineeringOptions == s.engineeringOptions
    ensures OptionsOf(r.styleOptions, s.buildings[0].styleDistractors, s.buildings[0].style) ||
            (s.index == 0 && r.styleOptions == s.styleOptions)
    ensures OptionsOf(r.engineeringOptions, s.buildings[0].engineeringDistractors, s.buildings[0].engineeringAnswer) ||
            (s.index == 0 && r.engineeringOptions == s.engineeringOptions)
  {
    var r := s.(index := 0, stage := StyleQuestion, selectedStyle := None,
                selectedEngineering := None, score := Score(0, 0), showName := false);
    if s.index == 0 then r else ShowOptions(r, d)
  }

  /** The "Reveal/Hide Building Name" link. */
  function HandleToggleName(s: Session): (r: Session)
    requires s.stage != Complete
    ensures r.showName == !s.showName
    ensures r.(showName := s.showName) == s
  {
    s.(showName := !s.showName)
  }

  // ---------------------------------------------------------------------------
  // The view as a state machine

  /** The event's button is on screen: option buttons in their question stage
      (one per offered option), each advance button in its answer stage, the
      restart button on the final screen and the name link everywhere else. */
  predicate Enabled(s: Session, e: Event) {
    match e
    case AnswerStyle(a) => s.stage == StyleQuestion && a in s.styleOptions
    case ContinueToEngineering => s.stage == StyleAnswer
    case AnswerEngineering(a) => s.stage == EngineeringQuestion && a in s.engineeringOptions
    case Next(_) => s.stage == EngineeringAnswer
    case Restart(_) => s.stage == Complete
    case ToggleName => s.stage != Complete
  }

  /** The stage that follows `s`'s stage when the user moves on. */
  function Successor(s: Session): Stage {
    match s.stage
    case StyleQuestion => StyleAnswer
    case StyleAnswer => EngineeringQuestion
    case EngineeringQuestion => EngineeringAnswer
    case EngineeringAnswer => if s.index + 1 < |s.buildings| then StyleQuestion else Complete
    case Complete => StyleQuestion
  }

  /** One click. A click on a button that is not on screen cannot happen and
      changes nothing. */
  function Step(s: Session, e: Event): (r: Session)
    requires Valid(s)
    ensures Valid(r)
    ensures r.buildings == s.buildings
    ensures r.stage == s.stage || r.stage == Successor(s)
    ensures !e.Restart? ==> r.index >= s.index
    ensures !Enabled(s, e) ==> r == s
  {
    if !Enabled(s, e) then s
    else
      match e
      case AnswerStyle(a) => StyleAnswerKeepsValid(s, a); HandleStyleAnswer(s, a)
      case ContinueToEngineering => ContinueKeepsValid(s); HandleContinueToEngineering(s)
      case AnswerEngineering(a) => EngineeringAnswerKeepsValid(s, a); HandleEngineeringAnswer(s, a)
      case Next(d) => NextKeepsValid(s, d); HandleNext(s, d)
      case Restart(d) => RestartKeepsValid(s, d); HandleRestart(s, d)
      case ToggleName => ToggleKeepsValid(s); HandleToggleName(s)
  }

  lemma StyleAnswerKeepsValid(s: Session, a: string)
    requires Valid(s) && s.stage == StyleQuestion
    ensures Valid(HandleStyleAnswer(s, a))
    ensures HandleStyleAnswer(s, a).buildings == s.buildings
    ensures HandleStyleAnswer(s, a).stage == Successor(s)
    ensures HandleStyleAnswer(s, a).index == s.index
  {
    var r := HandleStyleAnswer(s, a);
    assert Current(r) == Current(s);
  }

  lemma ContinueKeepsValid(s: Session)
    requires Valid(s) && s.stage == StyleAnswer
    ensures Valid(HandleContinueToEngineering(s))
    ensures HandleContinueToEngineering(s).buildings == s.buildings
    ensures HandleContinueToEngineering(s).stage == Successor(s)
    ensures HandleContinueToEngineering(s).index == s.index
  {
    var r := HandleContinueToEngineering(s);
    assert Current(r) == Current(s);
  }

  lemma EngineeringAnswerKeepsValid(s: Session, a: string)
    requires Valid(s) && s.stage == EngineeringQuestion
    ensures Valid(HandleEngineeringAnswer(s, a))
    ensures HandleEngineeringAnswer(s, a).buildings == s.buildings
    ensures HandleEngineeringAnswer(s, a).stage == Successor(s)
    ensures HandleEngineeringAnswer(s, a).index == s.index
  {
    var r := HandleEngineeringAnswer(s, a);
    assert Current(r) == Current(s);
  }

  lemma NextKeepsValid(s: Session, d: Draw)
    requires Valid(s) && s.stage == EngineeringAnswer
    ensures Valid(HandleNext(s, d))
    ensures HandleNext(s, d).buildings == s.buildings
    ensures HandleNext(s, d).stage == Successor(s)
    ensures HandleNext(s, d).index >= s.index
  {
    if s.index < |s.buildings| - 1 {
      var r := HandleNext(s, d);
      assert Current(r) == s.buildings[s.index + 1];
    }
  }

  lemma RestartKeepsValid(s: Session, d: Draw)
    requires Valid(s) && s.stage == Complete
    ensures Valid(HandleRestart(s, d))
    ensures HandleRestart(s, d).buildings == s.buildings
    ensures HandleRestart(s, d).stage == Successor(s)
  {
    var r := HandleRestart(s, d);
    assert Current(r) == s.buildings[0];
  }

  lemma ToggleKeepsValid(s: Session)
    requires Valid(s) && s.stage != Complete
    ensures Valid(HandleToggleName(s))
    ensures HandleToggleName(s).buildings == s.buildings
    ensures HandleToggleName(s).stage == s.stage
    ensures HandleToggleName(s).index == s.index
  {
    var r := HandleToggleName(s);
    assert Current(r) == Current(s);
  }

  /** Every event of `evs` is on screen when it happens. */
  predicate Accepted(s: Session, evs: seq<Event>)
    requires Valid(s)
    decreases |evs|
  {
    |evs| == 0 || (Enabled(s, evs[0]) && Accepted(Step(s, evs[0]), evs[1..]))
  }

  function Run(s: Session, evs: seq<Event>): (r: Session)
    requires Valid(s)
    decreases |evs|
  {
    if |evs| == 0 then s else Run(Step(s, evs[0]), evs[1..])
  }

  /** The total a user would count by hand: every answer click adds one and
      "Try Again" starts the count afresh. */
  function CountAnswers(start: nat, evs: seq<Event>): nat
    decreases |evs|
  {
    if |evs| == 0 then start else CountAnswers(CountOne(start, evs[0]), evs[1..])
  }

  function CountOne(count: nat, e: Event): nat {
    match e
    case AnswerStyle(_) => count + 1
    case AnswerEngineering(_) => count + 1
    case Restart(_) => 0
    case _ => count
  }

  /** One accepted click moves `total` as a hand count would. */
  lemma StepTotal(s: Session, e: Event)
    requires Valid(s) && Enabled(s, e)
    ensures Step(s, e).score.total == CountOne(s.score.total, e)
  {
    match e
    case AnswerStyle(a) =>
    case ContinueToEngineering =>
    case AnswerEngineering(a) =>
    case Next(d) =>
    case Restart(d) =>
    case ToggleName =>
  }

  /** Any sequence of clicks keeps the session valid. */
  lemma {:induction false} RunValid(s: Session, evs: seq<Event>)
    requires Valid(s)
    ensures Valid(Run(s, evs))
    ensures Run(s, evs).buildings == s.buildings
    decreases |evs|
  {
    if |evs| > 0 {
      RunValid(Step(s, evs[0]), evs[1..]);
    }
  }

  /** `total` is the number of answers given since the session began or was
      last restarted. */
  lemma {:induction false} TotalCountsAnswers(s: Session, evs: seq<Event>)
    requires Valid(s)
    requires Accepted(s, evs)
    ensures Run(s, evs).score.total == CountAnswers(s.score.total, evs)
    decreases |evs|
  {
    if |evs| > 0 {
      StepTotal(s, evs[0]);
      TotalCountsAnswers(Step(s, evs[0]), evs[1..]);
    }
  }

  // ---------------------------------------------------------------------------
  // Final screen

  /** `Math.round(correct / total * 100)` in exact arithmetic: the percentage
      rounded half up. The source divides without checking `total`. */
  function Percentage(score: Score): (p: nat)
    requires score.total > 0
    ensures 2 * score.total * p <= 200 * score.correct + score.total < 2 * score.total * (p + 1)
    ensures score.correct <= score.total ==> p <= 100
  {
    var n := 200 * score.correct + score.total;
    var d := 2 * score.total;
    var p := n / d;
    DivBounds(n, d);
    assert 2 * score.total * p == d * p && 2 * score.total * (p + 1) == d * (p + 1);
    assert score.correct <= score.total ==> p <= 100 by {
      if score.correct <= score.total {
        assert n < d * 101;
        MulMonotone(d, 101, p);
      }
    }
    p
  }

  lemma DivBounds(n: nat, d: nat)
    requires d > 0
    ensures d * (n / d) <= n < d * (n / d + 1)
  {
    assert n == d * (n / d) + n % d;
  }

  lemma MulMonotone(d: nat, a: nat, b: nat)
    requires d > 0 && d * b < d * a
    ensures b < a
  {
  }

  /** The percentage on the final screen: reachable sessions reach it with a
      positive total, so the unguarded division is safe there. */
  function FinalPercentage(s: Session): (p: nat)
    requires Valid(s) && s.stage == Complete
    ensures s.score.total == 2 * |s.buildings|
    ensures 2 * s.score.total * p <= 200 * s.score.correct + s.score.total < 2 * s.score.total * (p + 1)
    ensures p <= 100
  {
    Percentage(s.score)
  }

  lemma SevenOfTen()
    ensures Percentage(Score(7, 10)) == 70
  {
  }

  // ---------------------------------------------------------------------------
  // Style hints

  const DefaultHint: string := "Classic architectural style with distinctive features"

  /** The hover text for a style: its entry in the hint table, or a default
      when the entry is missing or empty (`hints[style] || default`). */
  function StyleHint(hints: map<string, string>, style: string): (r: string)
    ensures r != ""
    ensures style in hints && hints[style] != "" ==> r == hints[style]
    ensures style !in hints ==> r == DefaultHint
    ensures style in hints && hints[style] == "" ==> r == DefaultHint
  {
    if style in hints && hints[style] != "" then hints[style] else DefaultHint
  }
}

=== FILE: shuffle.dfy ===
/** The random reordering done by `array.sort(() => Math.random() - 0.5)`.

    The comparator's coin flips are an input: a draw is a list of position
    pairs, and each pair exchanges two elements (a pair with a position past
    the end is skipped, so every draw is usable on every list). Whatever the draw, the
    result is a permutation of the input; conversely every permutation is the
    result of some draw, so the model neither adds nor loses orders. No
    statement about the distribution of orders is made. */
module Shuffle {

  /** Exchanges the elements at positions `i` and `j`. */
  function Swap<T>(s: seq<T>, i: nat, j: nat): (r: seq<T>)
    requires i < |s| && j < |s|
    ensures |r| == |s|
    ensures multiset(r) == multiset(s)
    ensures r[i] == s[j] && r[j] == s[i]
    ensures forall k :: 0 <= k < |s| && k != i && k != j ==> r[k] == s[k]
  {
    s[i := s[j]][j := s[i]]
  }

  /** `s` reordered by the exchanges of `draw`, applied left to right. */
  function Shuffle<T>(s: seq<T>, draw: seq<(nat, nat)>): (r: seq<T>)
    ensures |r| == |s|
    ensures multiset(r) == multiset(s)
    decreases |draw|
  {
    if |draw| == 0 then s
    else if draw[0].0 < |s| && draw[0].1 < |s| then Shuffle(Swap(s, draw[0].0, draw[0].1), draw[1..])
    else Shuffle(s, draw[1..])
  }

  /** Every reordering of `s` is produced by some draw. */
  lemma Reachable<T>(s: seq<T>, t: seq<T>) returns (draw: seq<(nat, nat)>)
    requires multiset(s) == multiset(t)
    ensures Shuffle(s, draw) == t
  {
    assert |s| == |multiset(s)| == |multiset(t)| == |t|;
    draw := ReachableFrom(s, t, 0);
  }

  /** A draw that fixes positions `k..` of `s` to those of `t`, given that the
      first `k` positions already agree. */
  lemma {:induction false} ReachableFrom<T>(s: seq<T>, t: seq<T>, k: nat) returns (draw: seq<(nat, nat)>)
    requires |s| == |t| && k <= |s|
    requires multiset(s) == multiset(t)
    requires s[..k] == t[..k]
    ensures Shuffle(s, draw) == t
    decreases |s| - k
  {
    if k == |s| {
      assert s == s[..k] && t == t[..k];
      draw := [];
    } else {
      SuffixesAgree(s, t, k);
      assert t[k..][0] == t[k];
      var j := IndexOf(s, t[k], k);
      var s1 := Swap(s, k, j);
      assert s1[..k + 1] == t[..k + 1] by {
        forall i | 0 <= i < k + 1 ensures s1[i] == t[i] {
          if i < k { assert s[..k][i] == t[..k][i]; }
        }
      }
      var rest := ReachableFrom(s1, t, k + 1);
      draw := [(k, j)] + rest;
      ShuffleFirst(s, k, j, rest);
    }
  }

  /** The first exchange of a draw acts first. */
  lemma ShuffleFirst<T>(s: seq<T>, i: nat, j: nat, rest: seq<(nat, nat)>)
    requires i < |s| && j < |s|
    ensures Shuffle(s, [(i, j)] + rest) == Shuffle(Swap(s, i, j), rest)
  {
    var draw := [(i, j)] + rest;
    assert draw[0] == (i, j) && draw[1..] == rest;
  }

  /** Equal multisets with equal prefixes have equal suffixes as multisets. */
  lemma SuffixesAgree<T>(s: seq<T>, t: seq<T>, k: nat)
    requires k <= |s| && k <= |t|
    requires multiset(s) == multiset(t)
    requires s[..k] == t[..k]
    ensures multiset(s[k..]) == multiset(t[k..])
  {
    assert s == s[..k] + s[k..] && t == t[..k] + t[k..];
    forall x ensures multiset(s[k..])[x] == multiset(t[k..])[x] {
      assert multiset(s)[x] == multiset(s[..k])[x] + multiset(s[k..])[x];
      assert multiset(t)[x] == multiset(t[..k])[x] + multiset(t[k..])[x];
    }
  }

  /** A position at or after `k` holding `x`, when `x` occurs there. */
  lemma IndexOf<T>(s: seq<T>, x: T, k: nat) returns (j: nat)
    requires k <= |s|
    requires x in multiset(s[k..])
    ensures k <= j < |s| && s[j] == x
  {
    assert x in s[k..];
    var m :| 0 <= m < |s[k..]| && s[k..][m] == x;
    j := k + m;
  }
}

=== FILE: text.dfy ===
/** String helpers shared by the TypeScript and Python parts of the system:
    whitespace trimming (with each runtime's own notion of whitespace),
    prefix tests, substring search and joining. */
module Text {
  import opened Base

  /** Characters that JavaScript's `String.prototype.trim` removes: the
      WhiteSpace and LineTerminator code points of ECMA-262. */
  predicate IsJsSpace(c: char) {
    || ('\t' <= c <= '\r')
    || c == ' ' || c == '\U{00A0}' || c == '\U{1680}'
    || ('\U{2000}' <= c <= '\U{200A}')
    || c == '\U{2028}' || c == '\U{2029}' || c == '\U{202F}' || c == '\U{205F}'
    || c == '\U{3000}' || c == '\U{FEFF}'
  }

  /** Characters that Python's argument-less `str.strip()` removes (those for
      which `str.isspace` holds). Unlike JavaScript this includes U+001C..U+001F
      and U+0085 and excludes U+FEFF. */
  predicate IsPySpace(c: char) {
    || ('\t' <= c <= '\r')
    || ('\U{001C}' <= c <= '\U{001F}')
    || c == ' ' || c == '\U{0085}' || c == '\U{00A0}' || c == '\U{1680}'
    || ('\U{2000}' <= c <= '\U{200A}')
    || c == '\U{2028}' || c == '\U{2029}' || c == '\U{202F}' || c == '\U{205F}'
    || c == '\U{3000}'
  }

  /** Every character of `s` is whitespace in the sense of `ws`. */
  predicate AllSpace(s: string, ws: char -> bool) {
    forall i :: 0 <= i < |s| ==> ws(s[i])
  }

  /** `s` neither starts nor ends with whitespace. */
  predicate Bare(s: string, ws: char -> bool) {
    |s| == 0 || (!ws(s[0]) && !ws(s[|s| - 1]))
  }

  /** Length of the longest whitespace prefix of `s`. */
  function LeadingSpace(s: string, ws: char -> bool): (k: nat)
    ensures k <= |s|
    ensures AllSpace(s[..k], ws)
    ensures k < |s| ==> !ws(s[k])
  {
    if |s| > 0 && ws(s[0]) then
      var k := 1 + LeadingSpace(s[1..], ws);
      assert s[..k] == [s[0]] + s[1..][..k - 1];
      k
    else 0
  }

  /** Length of the longest whitespace suffix of `s`. */
  function TrailingSpace(s: string, ws: char -> bool): (k: nat)
    ensures k <= |s|
    ensures AllSpace(s[|s| - k..], ws)
    ensures k < |s| ==> !ws(s[|s| - k - 1])
  {
    if |s| > 0 && ws(s[|s| - 1]) then
      var init := s[..|s| - 1];
      var k := 1 + TrailingSpace(init, ws);
      assert s[|s| - k..] == init[|init| - (k - 1)..] + [s[|s| - 1]];
      k
    else 0
  }

  /** `s` with leading and trailing whitespace removed. */
  function Trim(s: string, ws: char -> bool): (r: string)
    ensures |r| <= |s|
    ensures Bare(r, ws)
    ensures r == [] <==> AllSpace(s, ws)
  {
    var lead := LeadingSpace(s, ws);
    if lead == |s| then
      assert s[..lead] == s;
      ""
    else
      var trail := TrailingSpace(s, ws);
      assert lead < |s| - trail;
      s[lead..|s| - trail]
  }

  /** Trimming is determined by the padding: whitespace around a bare string is
      removed and nothing else is. */
  lemma TrimPadded(lead: string, x: string, trail: string, ws: char -> bool)
    requires AllSpace(lead, ws) && AllSpace(trail, ws) && Bare(x, ws)
    ensures Trim(lead + x + trail, ws) == x
  {
    var s := lead + x + trail;
    var k := LeadingSpace(s, ws);
    if |x| == 0 {
      assert forall i :: 0 <= i < |s| ==> ws(s[i]) by {
        forall i | 0 <= i < |s| ensures ws(s[i]) {
          if i < |lead| { assert s[i] == lead[i]; } else { assert s[i] == trail[i - |lead|]; }
        }
      }
    } else {
      assert s == lead + (x + trail) && s == (lead + x) + trail;
      LeadingOfPadded(lead, x + trail, ws);
      TrailingOfPadded(lead + x, trail, ws);
      assert s[|lead|..|s| - |trail|] == x;
    }
  }

  /** The whitespace prefix of padding followed by a non-blank start is the padding. */
  lemma LeadingOfPadded(lead: string, rest: string, ws: char -> bool)
    requires AllSpace(lead, ws) && |rest| > 0 && !ws(rest[0])
    ensures LeadingSpace(lead + rest, ws) == |lead|
  {
    var s := lead + rest;
    var k := LeadingSpace(s, ws);
    assert forall i :: 0 <= i < |lead| ==> s[i] == lead[i];
    assert s[|lead|] == rest[0];
  }

  /** The whitespace suffix of a non-blank end followed by padding is the padding. */
  lemma TrailingOfPadded(rest: string, trail: string, ws: char -> bool)
    requires AllSpace(trail, ws) && |rest| > 0 && !ws(rest[|rest| - 1])
    ensures TrailingSpace(rest + trail, ws) == |trail|
  {
    var s := rest + trail;
    var k := TrailingSpace(s, ws);
    assert forall i :: 0 <= i < |trail| ==> s[|rest| + i] == trail[i];
    assert s[|rest| - 1] == rest[|rest| - 1];
  }

  predicate StartsWith(s: string, prefix: string) {
    |prefix| <= |s| && s[..|prefix|] == prefix
  }

  predicate EndsWith(s: string, suffix: string) {
    |suffix| <= |s| && s[|s| - |suffix|..] == suffix
  }

  /** `pat` occurs in `s` starting at index `k`. */
  predicate OccursAt(s: string, pat: string, k: nat) {
    k + |pat| <= |s| && s[k..k + |pat|] == pat
  }

  /** Two windows that agree character by character are equal. */
  lemma SameWindow(s: string, a: nat, t: string, b: nat, n: nat)
    requires a + n <= |s| && b + n <= |t|
    requires forall i :: a <= i < a + n ==> s[i] == t[i - a + b]
    ensures s[a..a + n] == t[b..b + n]
  {
    var u, v := s[a..a + n], t[b..b + n];
    assert |u| == n == |v|;
    forall i | 0 <= i < n ensures u[i] == v[i] {
      assert u[i] == s[a + i];
      assert v[i] == t[b + i];
    }
  }

  /** Index of the first occurrence of `pat` in `s` at or after `from`. */
  function FindFrom(s: string, pat: string, from: nat): (r: Option<nat>)
    ensures r.Some? ==> from <= r.value && OccursAt(s, pat, r.value)
    ensures r.Some? ==> forall k :: from <= k < r.value ==> !OccursAt(s, pat, k)
    ensures r.None? ==> forall k :: from <= k ==> !OccursAt(s, pat, k)
    decreases |s| - from
  {
    if from + |pat| > |s| then None
    else if OccursAt(s, pat, from) then Some(from)
    else FindFrom(s, pat, from + 1)
  }

  /** The parts separated by `sep`, as JavaScript's `Array.prototype.join`. */
  function Join(parts: seq<string>, sep: string): string
  {
    if |parts| == 0 then ""
    else if |parts| == 1 then parts[0]
    else parts[0] + sep + Join(parts[1..], sep)
  }

  /** Appending a part appends the separator and that part. */
  lemma {:induction false} JoinSnoc(parts: seq<string>, x: string, sep: string)
    requires |parts| > 0
    ensures Join(parts + [x], sep) == Join(parts, sep) + sep + x
    decreases |parts|
  {
    if |parts| == 1 {
      assert parts + [x] == [parts[0], x];
      assert [parts[0], x][1..] == [x];
    } else {
      assert (parts + [x])[1..] == parts[1..] + [x];
      JoinSnoc(parts[1..], x, sep);
    }
  }

  /** Decimal digits of a natural number, most significant first. */
  function NatToDecimal(n: nat): (r: string)
    ensures |r| >= 1
  {
    if n < 10 then ["0123456789"[n]]
    else NatToDecimal(n / 10) + ["0123456789"[n % 10]]
  }

  /** Decimal rendering of an integer, with a leading `-` when negative. */
  function IntToDecimal(n: int): string
  {
    if n < 0 then "-" + NatToDecimal(-n) else NatToDecimal(n)
  }
}
